=== FILE: README.md ===
# Cookbook builder, modelled in Dafny

`Build.py` turns a directory tree of plain-text recipes into HTML pages and a
nested index page. This project models the three pieces of logic in it that do
not depend on the file system, and proves what they do:

- **The recipe parser** (`parse_recipe`). It is one pass over the lines of a
  recipe file. The pass carries a "title taken" flag and a section cursor
  (none, ingredients, directions, notes). Every stripped, non-blank line goes
  through a fixed chain of literal-prefix tests, and the first test that
  matches decides. The result is a record with a title, three metadata strings
  and three ordered lists.
  - `RecipeParser` defines the pass as a fold (`Run`), with the source's loop
    alongside it (`ParseLines`).
  - `ParserSpec` describes the result declaratively, field by field, and
    proves that the pass computes exactly that description.
  - `ParserProperties` states the per-line and whole-file facts: how the title
    is chosen, what blank lines, labels and headers do, and how items are
    appended.
- **The escaped list items of a recipe page** (`recipe_to_html`).
  - `HtmlEscape` models `html.escape` with `quote=True` in two ways, per
    character and as the library's chain of `str.replace` calls, and proves the
    two equal. It also proves that escaping can be undone and that a rendered
    list reads back into its entries.
  - `RecipePage` models the parts of a page that carry recipe data. The title
    and metadata go in raw; the list entries go in escaped. It also models the
    photo lookup over a given set of file names.
- **The index tree** (`build_html_list`). `IndexTree` works over an in-memory
  directory tree.
  - Entries are visited in name order (`NameOrder` gives Python's string
    order).
  - Names starting with `.` and the name `Index.html` are skipped.
  - A directory holding `<name>.html` becomes a link.
  - Any other directory becomes a folder that wraps its own listing.
  - Files yield nothing.

  The source builds strings directly (`BuildHtmlList`). The model also defines
  the tree of entries those strings describe (`Listing`, rendered by `Render`)
  and proves that both produce the same text.

Python's string operations are written out in `Strings`: `str.strip` with
the characters `str.isspace` accepts, `startswith`, `find` for one character,
`split(":", 1)[1]`, `join` and single-character `replace`.

A `Directions:` step line with no `.` keeps its number: `find` returns -1, so
the slice starts at 0 and the whole stripped line is the step.
`ParserProperties.DirectionWithoutPeriod` states this.

## Model

| member | source | states |
|---|---|---|
| RecipeParser.MetaValue | Build.py:28-32 | The value of a metadata line is the text after its first `:` with the whitespace at both ends removed: a slice of the line after the colon, with only whitespace around it and none at its own ends. |
| RecipeParser.BulletText | Build.py:39-44 | An ingredient or a note is the line after its leading `-`, trimmed: a slice of the line from the second character on, with only whitespace around it and none at its own ends. |
| RecipeParser.DirectionText | Build.py:41-42 | A step is the line after its first `.`, or the whole line when it has none, trimmed in the same way. |
| RecipeParser.Dispatch | Build.py:27-44 | A line after the title never changes the title or the title flag. It adds at most one list entry, at the end of one list, and keeps the entries already there. |
| RecipeParser.Step | Build.py:19-44 | A blank line changes nothing. The title flag is set once a non-blank line has been read, and the line that sets it becomes the title. A title already taken is kept. At most one list entry is added, at the end of one list. |
| RecipeParser.Run | Build.py:19-44 | After any lines, the title flag is set exactly when the title is non-empty, and the three lists together hold no more entries than there were lines. |
| RecipeParser.TitleTakenIffNonBlank | Build.py:20-26 | After any lines, the title flag is set exactly when some line is not blank. |
| RecipeParser.Parse | Build.py:12-45 | The title is empty exactly when every line of the file is blank, and the file yields at most one list entry per line. |
| RecipeParser.ParseLines | Build.py:12-45 | The loop over the lines, carrying the record, the cursor and the title flag, returns the record that the fold `Parse` describes. |
| RecipeParser.LabelColon | Build.py:27-32 | For a line starting with `Serves:`, `Active Time:` or `Total Time:`, the text after the first `:` is exactly the text after the label. |
| ParserSpec.ParseMatchesSpec | Build.py:12-45 | The parsed record is the declarative description. The title is the first non-blank stripped line. Each metadata field is the value of the last line after the title that carries its label. Each list holds, in file order, the text of every line its section accepts that sits under that section's latest header. |
| ParserSpec.RunMatchesSpec | Build.py:19-44 | After every prefix of the file, the title flag is set exactly when a non-blank line has been seen. The cursor is the section of the last header seen, and the record agrees with the description of that prefix. |
| ParserSpec.DispatchIsApply | Build.py:27-44 | After the title, the source's chain of prefix tests on a line is the same as classifying the line independently of the cursor and then applying the kind: labels, then headers, then items, the first match deciding. |
| ParserProperties.TitleIsFirstNonBlank | Build.py:20-26 | The title is the first non-blank line, stripped, whatever it says, even a label or a header. |
| ParserProperties.TitleNeverChanges | Build.py:23-26 | Once a non-blank line has been read, no further lines change the title. |
| ParserProperties.BlankFileIsEmpty | Build.py:13-22 | A file of blank or whitespace-only lines yields the empty record and leaves the loop in its starting state. |
| ParserProperties.BlankStepIsIdentity | Build.py:20-22 | A blank or whitespace-only line changes nothing: not the record, not the cursor, not the title flag. |
| ParserProperties.BlankLineIgnored | Build.py:20-22 | Inserting a blank line anywhere in a file does not change the parse. |
| ParserProperties.MetadataSetsOnlyItsField | Build.py:27-32 | After the title, a `Serves:` / `Active Time:` / `Total Time:` line sets only its own field, to the stripped text after the label, whatever the cursor. It changes neither the lists nor the cursor. |
| ParserProperties.FieldChangesOnlyOnItsLabel | Build.py:27-32 | A metadata field changes only on a line after the title that starts with its label, so the last such line wins. |
| ParserProperties.HeaderOnlyMovesCursor | Build.py:33-38 | After the title, `Ingredients:`, `Directions:` and `Notes:` lines set the cursor and change nothing else. |
| ParserProperties.ItemLineAppends | Build.py:39-44 | Under `Ingredients:` or `Notes:`, a `-` line appends its stripped remainder to that list. Under `Directions:`, a line whose first character is a digit appends its step text. Nothing else changes. |
| ParserProperties.UnmatchedLineIsDropped | Build.py:39-44 | A line that no rule takes leaves the state unchanged. This includes a `-` line outside ingredients and notes, and a numbered line outside directions. |
| ParserProperties.StepKeepsEntries | Build.py:39-44 | One line never shortens a list or rewrites an entry already in it, and never changes a title already taken. |
| ParserProperties.EntriesKeepFileOrder | Build.py:39-44 | What a prefix of the file put in each list is still the start of that list after any further lines. |
| ParserProperties.DirectionWithoutPeriod | Build.py:41-42 | A step line with no `.` is kept whole, digits included. |
| ParserProperties.DirectionAfterFirstPeriod | Build.py:41-42 | Otherwise the step text is the stripped text after the first `.` anywhere in the line. |
| Strings.IsSpace | Build.py:20 | A character is whitespace exactly when `str.isspace` accepts it: TAB to CR, FS to SPACE, NEL, NO-BREAK SPACE, OGHAM SPACE MARK, EN QUAD to HAIR SPACE, the line and paragraph separators, NARROW NO-BREAK SPACE, MEDIUM MATHEMATICAL SPACE and IDEOGRAPHIC SPACE. |
| Strings.IsDigit | Build.py:41 | A character is a digit exactly when it is `0` to `9` (see "Left out" for other Unicode digits). |
| Strings.StartsWith | Build.py:27-44 | `s.startswith(prefix)`: the prefix is no longer than the text and equals its first characters. |
| Strings.Join | Build.py:134 | `sep.join(parts)` is empty for no parts and the part itself for one part. Otherwise it begins with the first part, and its length is the parts' total plus one separator between each two. |
| Strings.JoinAppend | Build.py:134 | Joining two non-empty runs of parts gives the two joins with one separator between them. With `Join`'s empty and one-part cases, this fixes `sep.join` completely. |
| Strings.ReplaceChar | Build.py:128 | `s.replace(c, entity)` for a single character: when the entity does not contain `c`, no `c` is left in the result. |
| Strings.AfterFirst | Build.py:28-32 | `s.split(c, 1)[1]` is the rest of the text after the first `c`: a proper suffix, preceded by `c`, with no `c` before that one. |
| Strings.Strip | Build.py:20 | Stripping gives a text no longer than the input, whose first and last characters are not whitespace. |
| Strings.StripIsSlice | Build.py:20 | Stripping removes whitespace only, at both ends: the result is a slice of the line and everything before and after it is whitespace. |
| Strings.StripAfter | Build.py:40-44 | `line[from:].strip()` is the part of the line from `from` on with the whitespace at both ends removed, and only there. |
| Strings.StripEmptyIffBlank | Build.py:20-22 | A stripped line is empty exactly when the line is all whitespace. |
| Strings.Find | Build.py:42 | `find` gives -1 exactly when the character is absent; otherwise it gives an index of the character with no earlier occurrence. |
| HtmlEscape.Escape | Build.py:80 | Escaped text is at least as long as the input and contains no raw `<`, `>`, `"` or `'`. |
| HtmlEscape.EscapeByReplacing | Build.py:80 | The library's chain of replacements, `&` first, then `<`, `>`, `"`, `'`, gives the same text as escaping character by character. |
| HtmlEscape.EscapeIsReplacing | Build.py:80 | By induction over the text: applying the five replacements in order to any text equals escaping it character by character. |
| HtmlEscape.ReplaceAllSingle | Build.py:80 | In a replacement chain where no entity holds a character replaced later, one character becomes the entity of the first replacement that targets it. |
| HtmlEscape.UnescapeEscape | Build.py:80 | Decoding the five entities undoes escaping. |
| HtmlEscape.EscapeInjective | Build.py:80 | Different texts escape to different texts. |
| HtmlEscape.AmpersandsBeginEntities | Build.py:80 | Every `&` in escaped text begins one of the five entities. |
| HtmlEscape.EscapeUnchangedIff | Build.py:80 | Escaping leaves a text unchanged exactly when the text holds none of `&`, `<`, `>`, `"`, `'`. |
| HtmlEscape.Item | Build.py:80 | One rendered entry reads back as exactly that entry. Every `<` in it begins its own `<li>` or `</li>` tag, and every `>` ends one. It holds no raw `"` or `'`, and every `&` begins an entity, as `quote=True` escaping requires. |
| HtmlEscape.DecodeItemList | Build.py:80-88 | A list rendered as `<li>` + escaped entry + `</li>` items reads back as the same entries, in order. |
| HtmlEscape.ItemList | Build.py:80-88 | Every `<` in a rendered list begins an `<li>` or `</li>` tag, so no entry can open markup of its own. Every `>` ends such a tag, no raw `"` or `'` is left, and every `&` begins an entity. |
| RecipePage.FirstPresent | Build.py:49-55 | The photo is `base` plus the first extension, in order, whose file is present, and there is none exactly when no candidate is present. |
| RecipePage.FindImage | Build.py:49-55 | There is no photo exactly when none of `.jpg`, `.jpeg`, `.png`, `.webp` after the base name is present. Otherwise the photo is the first present one in that order, so a present `.jpg` always wins. |
| RecipePage.RecipeToHtml | Build.py:48-92 | The title goes in verbatim as the head title and the heading, and the metadata verbatim. The photo is the one `FindImage` picks, with the title as its description. Each of the three lists reads back as the recipe's own list and holds no markup but its item tags. No list has a raw `"` or `'`, every `&` in a list begins an entity, and every `>` ends an item tag. |
| RecipePage.TitleRawItemsEscaped | Build.py:59-88 | The same text goes in verbatim as the title and heading, and escaped inside `<li>` as an ingredient. The two forms agree exactly when the text has no special character. |
| RecipePage.FilePageLists | Build.py:108-109 | From file to page: each list on a recipe file's page reads back as the lines its section collects from the file, and the heading is the file's first non-blank line. |
| NameOrder.NameLeTotal | Build.py:119 | Python's string order compares any two names. |
| NameOrder.NameLeTransitive | Build.py:119 | Python's string order is transitive. |
| NameOrder.NameLeAntisymmetric | Build.py:119 | Two names each at most the other are equal, so sorted distinct names have a single order. |
| NameOrder.PrefixFirst | Build.py:119 | A prefix of a name sorts no later than the name itself. |
| IndexTree.SortByName | Build.py:119 | Sorting a directory's entries gives them in name order, as a permutation of the entries. |
| IndexTree.Href | Build.py:128 | A link's address has no backslash left in it. |
| IndexTree.EntryFor | Build.py:125-133 | A shown directory's entry carries its name, and it is a link exactly when the directory holds a file `<name>.html`. |
| IndexTree.Skipped | Build.py:122-123 | A name is left out exactly when it starts with `.` or is `Index.html`. |
| IndexTree.HasOwnPage | Build.py:125-127 | A directory is a recipe directory exactly when it holds a file named after it with `.html` appended. |
| IndexTree.LinkItem | Build.py:128-129 | A link line holds the address and the name escaped: each reads back as itself, the address holds no `"` that could end its attribute, and the name holds no `<`. |
| IndexTree.FolderOpen | Build.py:131 | A folder's opening line holds its name escaped: it reads back as the name and holds no `<`. |
| IndexTree.ItemLines | Build.py:118-133 | The strings collected while walking the sorted entries are the lines of their entries: one per link, and per folder its opening line, its nested text and its closing tags. |
| IndexTree.BuildHtmlList | Build.py:117-134 | The source's string building produces the text of the entry tree: the entries' lines joined with newlines. |
| IndexTree.ListingFromShownDirs | Build.py:120-133 | Every entry comes from a subdirectory whose name is not skipped: files yield nothing. |
| IndexTree.ListingCoversShownDirs | Build.py:120-133 | Every subdirectory whose name is not skipped has its entry: a link if it holds its own page, otherwise a folder wrapping its own listing. |
| IndexTree.ListingCount | Build.py:120-133 | The listing has exactly one entry per subdirectory whose name is not skipped. |
| IndexTree.ListingNoneSkipped | Build.py:122-123 | No entry named `Index.html` or starting with `.` appears, at any depth. |
| IndexTree.ListingSorted | Build.py:119-120 | At every level the entries follow the name order. |

## Left out

- Reading and writing files, `os.walk`, `os.listdir`, `os.path.isdir`/`isfile`/`exists`, and the progress messages (Build.py:18, 95-114, 136-154, 157-160). The parser takes the file's lines. The index takes an in-memory tree. The photo lookup takes the set of names present in the recipe's directory.
- `build_all_recipes`, the driver that walks the tree and writes one page per `.txt` file, and `build_index`, which writes the index file. Both are I/O around the modelled functions.
- The fixed HTML text of the page and index templates (Build.py:63-91, 138-150). A page is modelled as a record of its data-carrying parts, and the index as the text of its nested list.
- Splitting a file into lines. Iterating over a text file opened with default newline handling splits only at `\n`, `\r` and `\r\n`, turns each into `\n` and keeps it at the end of its line; the last line may have no break. Characters that `str.splitlines` would also split at (`\v`, `\f`, `\x1c` to `\x1e`, `\x85`, `\u2028`, `\u2029`) stay inside a line. The model takes the lines as any sequence of strings, so it covers every such splitting; a kept `\n` is whitespace, which `strip` removes.
- Strings.IsDigit: accepts the ASCII digits only, while Python's `str.isdigit` also accepts other Unicode digits. Recipe step numbers are ASCII.
- RecipePage.RecipeToHtml: takes the stylesheet's relative link as a parameter instead of computing it with `os.path.relpath`, which is platform path logic.
- IndexTree.Href: joins the directory names from the root with `/`, which is what `os.path.relpath` gives for a page inside the root, instead of modelling `relpath` in general.
- The `level` argument of `build_html_list`. It is passed down but never used.
- Symbolic links, permissions and errors raised by the file system or by undecodable text. None of them is handled by the code.
- Duplicate names within one directory, which a file system does not allow. Sorting never has to break a tie.

=== FILE: html_escape.dfy ===
/**
 HTML escaping as Python's `html.escape(s, quote=True)` does it, and the list
 items the recipe page is made of (`<li>` + escaped text + `</li>`, one per
 entry, concatenated).

 `Escape` replaces each special character by its entity; `EscapeByReplacing`
 is the library's own formulation, five `str.replace` calls with `&` first, and
 the two are proved equal. `Unescape` decodes the five entities and undoes
 `Escape`; `DecodeItems` reads a rendered list back into its entries.
 */
module HtmlEscape {
  import opened Strings
  import opened Options

  /** The characters `html.escape` with `quote=True` rewrites. */
  predicate IsSpecial(c: char) {
    c == '&' || c == '<' || c == '>' || c == '"' || c == '\''
  }

  function EscapeChar(c: char): (r: string)
    ensures |r| >= 1
    ensures !IsSpecial(c) <==> r == [c]
  {
    if c == '&' then "&amp;"
    else if c == '<' then "&lt;"
    else if c == '>' then "&gt;"
    else if c == '"' then "&quot;"
    else if c == '\'' then "&#x27;"
    else [c]
  }

  /** `html.escape(s)`: every special character replaced by its entity. */
  function Escape(s: string): (r: string)
    ensures |r| >= |s|
    ensures forall i :: 0 <= i < |r| ==> r[i] != '<' && r[i] != '>' && r[i] != '"' && r[i] != '\''
  {
    if s == [] then []
    else
      var r := EscapeChar(s[0]) + Escape(s[1..]);
      assert forall i :: 0 <= i < |r| ==> r[i] != '<' && r[i] != '>' && r[i] != '"' && r[i] != '\'' by {
        var head := EscapeChar(s[0]);
        forall i | 0 <= i < |r|
          ensures r[i] != '<' && r[i] != '>' && r[i] != '"' && r[i] != '\''
        {
          if i >= |head| {
            assert r[i] == Escape(s[1..])[i - |head|];
          }
        }
      }
      r
  }

  /** The five entities `Escape` produces. */
  predicate BeginsEntity(s: string) {
    StartsWith(s, "&amp;") || StartsWith(s, "&lt;") || StartsWith(s, "&gt;")
    || StartsWith(s, "&quot;") || StartsWith(s, "&#x27;")
  }

  /** Decodes the five entities; any other `&` stands for itself. */
  function Unescape(s: string): string {
    if s == [] then []
    else if StartsWith(s, "&amp;") then "&" + Unescape(s[5..])
    else if StartsWith(s, "&lt;") then "<" + Unescape(s[4..])
    else if StartsWith(s, "&gt;") then ">" + Unescape(s[4..])
    else if StartsWith(s, "&quot;") then "\"" + Unescape(s[6..])
    else if StartsWith(s, "&#x27;") then "'" + Unescape(s[6..])
    else [s[0]] + Unescape(s[1..])
  }

  /** The library's replacements, in its order: `&` first, so that the `&` of
      the later entities is not escaped again, then `<`, `>`, `"` and `'`. */
  const Replacements: seq<(char, string)> :=
    [('&', "&amp;"), ('<', "&lt;"), ('>', "&gt;"), ('"', "&quot;"), ('\'', "&#x27;")]

  /** Applies the replacements one after the other, each to the whole text. */
  function ReplaceAll(s: string, reps: seq<(char, string)>): string
    decreases |reps|
  {
    if reps == [] then s else ReplaceAll(ReplaceChar(s, reps[0].0, reps[0].1), reps[1..])
  }

  /** `html.escape` as the library writes it: a chain of `str.replace` calls. */
  function EscapeByReplacing(s: string): (r: string)
    ensures r == Escape(s)
  {
    EscapeIsReplacing(s);
    ReplaceAll(s, Replacements)
  }

  /** A chain of replacements distributes over concatenation. */
  lemma {:induction false} ReplaceAllAppend(a: string, b: string, reps: seq<(char, string)>)
    ensures ReplaceAll(a + b, reps) == ReplaceAll(a, reps) + ReplaceAll(b, reps)
    decreases |reps|
  {
    if reps != [] {
      var (c, entity) := reps[0];
      ReplaceCharAppend(a, b, c, entity);
      ReplaceAllAppend(ReplaceChar(a, c, entity), ReplaceChar(b, c, entity), reps[1..]);
    }
  }

  /** Text that contains none of the replaced characters passes unchanged. */
  lemma {:induction false} ReplaceAllKeeps(e: string, reps: seq<(char, string)>)
    requires forall i :: 0 <= i < |reps| ==> reps[i].0 !in e
    ensures ReplaceAll(e, reps) == e
  {
    if reps != [] {
      ReplaceCharKeeps(e, reps[0].0, reps[0].1);
      ReplaceAllKeeps(e, reps[1..]);
    }
  }

  /** What the chain makes of one character: the entity of the first
      replacement that targets it, or the character itself. */
  function FirstEntity(c: char, reps: seq<(char, string)>): string {
    if reps == [] then [c]
    else if reps[0].0 == c then reps[0].1
    else FirstEntity(c, reps[1..])
  }

  /** No entity contains a character that a later replacement targets. */
  predicate LaterSafe(reps: seq<(char, string)>) {
    forall i, j :: 0 <= i < j < |reps| ==> reps[j].0 !in reps[i].1
  }

  /** In a chain where no entity is touched by a later replacement, one
      character becomes the entity of the first replacement for it. */
  lemma {:induction false} ReplaceAllSingle(c: char, reps: seq<(char, string)>)
    requires LaterSafe(reps)
    ensures ReplaceAll([c], reps) == FirstEntity(c, reps)
  {
    if reps != [] {
      ReplaceCharSingle(c, reps[0].0, reps[0].1);
      if reps[0].0 == c {
        forall j | 0 <= j < |reps[1..]| ensures reps[1..][j].0 !in reps[0].1 {
          assert reps[1..][j] == reps[j + 1];
        }
        ReplaceAllKeeps(reps[0].1, reps[1..]);
      } else {
        assert LaterSafe(reps[1..]) by {
          forall i, j | 0 <= i < j < |reps[1..]| ensures reps[1..][j].0 !in reps[1..][i].1 {
            assert reps[1..][j] == reps[j + 1] && reps[1..][i] == reps[i + 1];
          }
        }
        ReplaceAllSingle(c, reps[1..]);
      }
    }
  }

  /** The five replacements, applied to one character, give its entity. */
  lemma ReplacingOneChar(c: char)
    ensures ReplaceAll([c], Replacements) == EscapeChar(c)
  {
    ReplacementsLaterSafe();
    ReplaceAllSingle(c, Replacements);
    FirstEntityIsEscape(c);
  }

  lemma ReplacementsLaterSafe()
    ensures LaterSafe(Replacements)
  {
    var r := Replacements;
    forall i, j | 0 <= i < j < |r| ensures r[j].0 !in r[i].1 {
      assert r[i].1 in ["&amp;", "&lt;", "&gt;", "&quot;"];
    }
  }

  /** The first replacement for each character is its entity. */
  lemma FirstEntityIsEscape(c: char)
    ensures FirstEntity(c, Replacements) == EscapeChar(c)
  {
    var r := Replacements;
    assert FirstEntity(c, r) == if c == '&' then "&amp;" else FirstEntity(c, r[1..]);
    assert FirstEntity(c, r[1..]) == if c == '<' then "&lt;" else FirstEntity(c, r[2..]) by {
      assert r[1..][1..] == r[2..];
    }
    assert FirstEntity(c, r[2..]) == if c == '>' then "&gt;" else FirstEntity(c, r[3..]) by {
      assert r[2..][1..] == r[3..];
    }
    assert FirstEntity(c, r[3..]) == if c == '"' then "&quot;" else FirstEntity(c, r[4..]) by {
      assert r[3..][1..] == r[4..];
    }
    assert FirstEntity(c, r[4..]) == if c == '\'' then "&#x27;" else [c] by {
      assert r[4..][1..] == [];
    }
  }

  /** Escaping character by character is what the library's replacement chain
      computes. */
  lemma {:induction false} EscapeIsReplacing(s: string)
    ensures Escape(s) == ReplaceAll(s, Replacements)
  {
    if s != [] {
      assert s == [s[0]] + s[1..];
      ReplaceAllAppend([s[0]], s[1..], Replacements);
      ReplacingOneChar(s[0]);
      EscapeIsReplacing(s[1..]);
    }
  }

  /** Decoding undoes escaping: no information is lost. */
  lemma {:induction false} UnescapeEscape(s: string)
    ensures Unescape(Escape(s)) == s
  {
    if s != [] {
      UnescapeEscape(s[1..]);
      UnescapeEscapedChar(s[0], Escape(s[1..]));
    }
  }

  /** Decoding an escaped character followed by anything decodes the character
      first. */
  lemma UnescapeEscapedChar(c: char, rest: string)
    ensures Unescape(EscapeChar(c) + rest) == [c] + Unescape(rest)
  {
    if IsSpecial(c) {
      UnescapeEntity(c, rest);
    } else {
      UnescapePlain(c, rest);
    }
  }

  /** A plain character does not begin an entity and decodes as itself. */
  lemma UnescapePlain(c: char, rest: string)
    requires !IsSpecial(c)
    ensures Unescape([c] + rest) == [c] + Unescape(rest)
  {
    var t := [c] + rest;
    assert t[1..] == rest;
    assert t[0] == c;
    if StartsWith(t, "&amp;") { LeadChar(t, "&amp;"); }
    if StartsWith(t, "&lt;") { LeadChar(t, "&lt;"); }
    if StartsWith(t, "&gt;") { LeadChar(t, "&gt;"); }
    if StartsWith(t, "&quot;") { LeadChar(t, "&quot;"); }
    if StartsWith(t, "&#x27;") { LeadChar(t, "&#x27;"); }
  }

  /** An entity decodes as its character: the entities the decoder tries
      before it differ from it in the second character. */
  lemma UnescapeEntity(c: char, rest: string)
    requires IsSpecial(c)
    ensures Unescape(EscapeChar(c) + rest) == [c] + Unescape(rest)
  {
    var head := EscapeChar(c);
    var t := head + rest;
    assert t[|head|..] == rest;
    assert t[..|head|] == head;
    assert t[1] == head[1];
    if c != '&' {
      DiffersAt(t, "&amp;", 1);
      if c != '<' {
        DiffersAt(t, "&lt;", 1);
        if c != '>' {
          DiffersAt(t, "&gt;", 1);
          if c != '"' {
            DiffersAt(t, "&quot;", 1);
          }
        }
      }
    }
  }

  lemma DiffersAt(t: string, prefix: string, i: nat)
    requires i < |prefix| && i < |t| && t[i] != prefix[i]
    ensures !StartsWith(t, prefix)
  {
  }

  /** Escaping leaves a text as it is exactly when the text holds none of the
      five special characters. */
  lemma {:induction false} EscapeUnchangedIff(s: string)
    ensures Escape(s) == s <==> forall i :: 0 <= i < |s| ==> !IsSpecial(s[i])
  {
    if s != [] {
      EscapeUnchangedIff(s[1..]);
      var head := EscapeChar(s[0]);
      var r := head + Escape(s[1..]);
      if IsSpecial(s[0]) {
        assert |r| > |s|;
      } else {
        assert head == [s[0]];
        assert r == s <==> Escape(s[1..]) == s[1..] by {
          if r == s {
            assert r[1..] == Escape(s[1..]);
          }
          if Escape(s[1..]) == s[1..] {
            assert s == [s[0]] + s[1..];
          }
        }
        assert (forall i :: 0 <= i < |s| ==> !IsSpecial(s[i])) <==> (forall i :: 0 <= i < |s[1..]| ==> !IsSpecial(s[1..][i])) by {
          if forall i :: 0 <= i < |s[1..]| ==> !IsSpecial(s[1..][i]) {
            forall i | 0 < i < |s| ensures !IsSpecial(s[i]) {
              assert s[i] == s[1..][i - 1];
            }
          }
        }
      }
    }
  }

  /** Different texts escape differently. */
  lemma EscapeInjective(a: string, b: string)
    requires Escape(a) == Escape(b)
    ensures a == b
  {
    UnescapeEscape(a);
    UnescapeEscape(b);
  }

  /** Every `&` in escaped text begins one of the five entities. */
  lemma {:induction false} AmpersandsBeginEntities(s: string)
    ensures forall i :: 0 <= i < |Escape(s)| && Escape(s)[i] == '&' ==> BeginsEntity(Escape(s)[i..])
  {
    if s != [] {
      var head := EscapeChar(s[0]);
      var rest := Escape(s[1..]);
      var r := head + rest;
      AmpersandsBeginEntities(s[1..]);
      forall i | 0 <= i < |r| && r[i] == '&'
        ensures BeginsEntity(r[i..])
      {
        if i >= |head| {
          assert r[i..] == rest[i - |head|..];
        } else {
          assert i == 0;
          assert r[..|head|] == head;
        }
      }
    }
  }

  /** One rendered list entry: `<li>` + escaped text + `</li>`. */
  function Item(text: string): (r: string)
    ensures DecodeItems(r) == Some([text])
    ensures TagsOnly(r)
    ensures FullyEscaped(r)
  {
    var e := Escape(text);
    assert "<li>" + e + "</li>" + "" == "<li>" + e + "</li>";
    assert DecodeItems("<li>" + e + "</li>") == Some([text]) by {
      DecodeOneItem(e, "");
      UnescapeEscape(text);
      assert DecodeItems("") == Some([]);
      assert [Unescape(e)] + [] == [text];
    }
    ItemTagsOnly(e, "");
    ItemFullyEscaped(text, "");
    "<li>" + e + "</li>"
  }

  /** A rendered list body: the entries' items concatenated, in order. Every
      `<` in it begins an `<li>` or `</li>` tag, so the entries cannot open
      markup of their own, and the entries' quotes, ampersands and `>` are
      all written as entities. */
  function ItemList(entries: seq<string>): (r: string)
    ensures TagsOnly(r)
    ensures FullyEscaped(r)
  {
    if entries == [] then []
    else
      ItemTagsOnly(Escape(entries[0]), ItemList(entries[1..]));
      ItemFullyEscaped(entries[0], ItemList(entries[1..]));
      Item(entries[0]) + ItemList(entries[1..])
  }

  /** Reads a rendered list body back into its entries: each item runs from
      `<li>` to the first `<` after it, which must begin `</li>`. */
  function DecodeItems(s: string): Option<seq<string>>
    decreases |s|
  {
    if s == [] then Some([])
    else if !StartsWith(s, "<li>") then None
    else
      var body := s[4..];
      var k := Find(body, '<');
      if k < 0 || !StartsWith(body[k..], "</li>") then None
      else
        match DecodeItems(body[k + 5..])
        case None => None
        case Some(rest) => Some([Unescape(body[..k])] + rest)
  }

  /** Reading a rendered list back gives the entries again, in order. */
  lemma {:induction false} DecodeItemList(entries: seq<string>)
    ensures DecodeItems(ItemList(entries)) == Some(entries)
  {
    if entries != [] {
      var tail := ItemList(entries[1..]);
      DecodeItemList(entries[1..]);
      DecodeOneItem(Escape(entries[0]), tail);
      UnescapeEscape(entries[0]);
      assert [entries[0]] + entries[1..] == entries;
    }
  }

  /** An item whose text holds no `<` is read up to its closing tag. */
  lemma DecodeOneItem(e: string, tail: string)
    requires '<' !in e
    ensures DecodeItems("<li>" + e + "</li>" + tail) ==
              match DecodeItems(tail)
              case None => None
              case Some(rest) => Some([Unescape(e)] + rest)
  {
    var s := "<li>" + e + "</li>" + tail;
    var body := s[4..];
    assert s[..4] == "<li>";
    assert body == e + ("</li>" + tail);
    FindAfter(e, "</li>" + tail, '<');
    assert body[|e|..] == "</li>" + tail;
    assert body[|e|..][..5] == "</li>";
    assert body[..|e|] == e;
    assert body[|e| + 5..] == tail;
  }

  lemma FindAfter(a: string, b: string, c: char)
    requires c !in a && b != [] && b[0] == c
    ensures Find(a + b, c) == |a|
  {
    assert (a + b)[..|a|] == a;
    assert (a + b)[|a|] == c;
    AfterFirstAt(a + b, c, |a|);
  }

  /** Every `<` in `s` begins an `<li>` or `</li>` tag. */
  predicate TagsOnly(s: string) {
    forall i :: 0 <= i < |s| && s[i] == '<' ==> StartsWith(s[i..], "<li>") || StartsWith(s[i..], "</li>")
  }

  /** What `html.escape(s, quote=True)` leaves of the special characters in a
      rendered list, besides the item tags: no quote of either kind, every `&`
      begins an entity and every `>` closes an `<li>` or `</li>` tag. */
  predicate FullyEscaped(s: string) {
    && (forall i :: 0 <= i < |s| ==> s[i] != '"' && s[i] != '\'')
    && (forall i :: 0 <= i < |s| && s[i] == '&' ==> BeginsEntity(s[i..]))
    && (forall i :: 0 <= i < |s| && s[i] == '>' ==> ClosesTag(s, i))
  }

  /** The `>` at `i` is the end of an `<li>` or a `</li>` tag. */
  predicate ClosesTag(s: string, i: int)
    requires 0 <= i < |s|
  {
    (i >= 3 && s[i - 3..i + 1] == "<li>") || (i >= 4 && s[i - 4..i + 1] == "</li>")
  }

  /** An entity stays an entity whatever follows it. */
  lemma BeginsEntityAppend(s: string, t: string)
    requires BeginsEntity(s)
    ensures BeginsEntity(s + t)
  {
    if StartsWith(s, "&amp;") { StartsWithAppend(s, t, "&amp;"); }
    if StartsWith(s, "&lt;") { StartsWithAppend(s, t, "&lt;"); }
    if StartsWith(s, "&gt;") { StartsWithAppend(s, t, "&gt;"); }
    if StartsWith(s, "&quot;") { StartsWithAppend(s, t, "&quot;"); }
    if StartsWith(s, "&#x27;") { StartsWithAppend(s, t, "&#x27;"); }
  }

  /** Putting one more escaped item in front keeps a list fully escaped. */
  lemma ItemFullyEscaped(t: string, tail: string)
    requires FullyEscaped(tail)
    ensures FullyEscaped("<li>" + Escape(t) + "</li>" + tail)
  {
    var e := Escape(t);
    var s := "<li>" + e + "</li>" + tail;
    ItemNoQuotes(e, tail);
    AmpersandsBeginEntities(t);
    ItemAmpersands(e, tail);
    ItemCloses(e, tail);
  }

  lemma ItemNoQuotes(e: string, tail: string)
    requires forall i :: 0 <= i < |e| ==> e[i] != '"' && e[i] != '\''
    requires forall i :: 0 <= i < |tail| ==> tail[i] != '"' && tail[i] != '\''
    ensures var s := "<li>" + e + "</li>" + tail;
            forall i :: 0 <= i < |s| ==> s[i] != '"' && s[i] != '\''
  {
    var s := "<li>" + e + "</li>" + tail;
    forall i | 0 <= i < |s|
      ensures s[i] != '"' && s[i] != '\''
    {
      if i < 4 {
        assert s[..4] == "<li>";
        assert s[i] == s[..4][i];
      } else if i < 4 + |e| {
        assert s[i] == e[i - 4];
      } else if i < 9 + |e| {
        assert s[4 + |e|..9 + |e|] == "</li>";
        assert s[i] == s[4 + |e|..9 + |e|][i - 4 - |e|];
      } else {
        assert s[i] == tail[i - 9 - |e|];
      }
    }
  }

  lemma ItemAmpersands(e: string, tail: string)
    requires forall i :: 0 <= i < |e| && e[i] == '&' ==> BeginsEntity(e[i..])
    requires forall i :: 0 <= i < |tail| && tail[i] == '&' ==> BeginsEntity(tail[i..])
    ensures var s := "<li>" + e + "</li>" + tail;
            forall i :: 0 <= i < |s| && s[i] == '&' ==> BeginsEntity(s[i..])
  {
    var s := "<li>" + e + "</li>" + tail;
    forall i | 0 <= i < |s| && s[i] == '&'
      ensures BeginsEntity(s[i..])
    {
      if i < 4 {
        assert false;
      } else if i < 4 + |e| {
        assert s[i] == e[i - 4];
        assert s[i..] == e[i - 4..] + ("</li>" + tail);
        BeginsEntityAppend(e[i - 4..], "</li>" + tail);
      } else if i < 9 + |e| {
        assert false;
      } else {
        assert s[i..] == tail[i - 9 - |e|..];
      }
    }
  }

  lemma ItemCloses(e: string, tail: string)
    requires forall i :: 0 <= i < |e| ==> e[i] != '>'
    requires forall i :: 0 <= i < |tail| && tail[i] == '>' ==> ClosesTag(tail, i)
    ensures var s := "<li>" + e + "</li>" + tail;
            forall i :: 0 <= i < |s| && s[i] == '>' ==> ClosesTag(s, i)
  {
    var s := "<li>" + e + "</li>" + tail;
    var n := 9 + |e|;
    assert s[..4] == "<li>";
    assert s[4 + |e|..n] == "</li>";
    assert s[n..] == tail;
    forall i | 0 <= i < |s| && s[i] == '>'
      ensures ClosesTag(s, i)
    {
      if i < 4 {
        assert s[i] == s[..4][i];
        assert i == 3;
      } else if 4 + |e| <= i < n {
        assert s[i] == s[4 + |e|..n][i - 4 - |e|];
        assert i == n - 1;
      } else if i >= n {
        var k := i - n;
        assert tail[k] == s[i];
        if k >= 3 && tail[k - 3..k + 1] == "<li>" {
          assert s[i - 3..i + 1] == tail[k - 3..k + 1];
        } else {
          assert s[i - 4..i + 1] == tail[k - 4..k + 1];
        }
      }
    }
  }

  lemma ItemTagsOnly(e: string, tail: string)
    requires '<' !in e && TagsOnly(tail)
    ensures TagsOnly("<li>" + e + "</li>" + tail)
  {
    var s := "<li>" + e + "</li>" + tail;
    forall i | 0 <= i < |s| && s[i] == '<'
      ensures StartsWith(s[i..], "<li>") || StartsWith(s[i..], "</li>")
    {
      if i < 4 {
        assert s[..4] == "<li>";
        assert i == 0;
      } else if i < 4 + |e| {
        assert false;
      } else if i < 9 + |e| {
        assert s[4 + |e|..9 + |e|] == "</li>";
        assert i == 4 + |e|;
        assert s[i..][..5] == "</li>";
      } else {
        assert s[i..] == tail[i - 9 - |e|..];
        assert tail[i - 9 - |e|] == '<';
      }
    }
  }
}

=== FILE: index_tree.dfy ===
/**
 The index page's nested list (`build_html_list` in Build.py), over an
 in-memory directory tree instead of the file system.

 A directory's entries are visited in name order. Names starting with `.` and
 the index page itself are skipped. A directory that holds a file named after
 it with `.html` appended becomes a link to that page; any other directory
 becomes a folder item holding the list built from its own entries; files
 yield nothing.

 The listing is defined twice: `BuildHtmlList` builds the text the way the
 source does, appending strings as it goes; `Listing` builds the tree of
 entries it describes and `Render` turns that into text. `BuildHtmlList`'s
 contract says the two agree, and the properties are stated on `Listing`.
 */
module IndexTree {
  import opened Strings
  import opened NameOrder
  import opened HtmlEscape

  /** A directory tree: a directory has its entries, in no particular order. */
  datatype Node = Dir(name: string, children: seq<Node>) | File(name: string)

  const IndexPage := "Index.html"
  const PageSuffix := ".html"

  /** Hidden names and the index page itself are left out of the index. */
  predicate Skipped(name: string) {
    StartsWith(name, ".") || name == IndexPage
  }

  /** A recipe directory: it holds a file named after it with `.html` appended. */
  predicate HasOwnPage(d: Node)
    requires d.Dir?
  {
    File(d.name + PageSuffix) in d.children
  }

  /** The entries the index lists: directories whose names are not skipped. */
  predicate Shown(c: Node) {
    c.Dir? && !Skipped(c.name)
  }

  // ---------- entry order ----------

  predicate SortedByName(s: seq<Node>) {
    forall i, j :: 0 <= i < j < |s| ==> NameLe(s[i].name, s[j].name)
  }

  function Insert(x: Node, s: seq<Node>): (r: seq<Node>)
    requires SortedByName(s)
    ensures SortedByName(r)
    ensures multiset(r) == multiset(s) + multiset{x}
  {
    if s == [] || NameLe(x.name, s[0].name) then
      SortedBefore(x, s);
      [x] + s
    else
      var t := Insert(x, s[1..]);
      assert s == [s[0]] + s[1..];
      NameLeTotal(x.name, s[0].name);
      SortedAfterHead(s, x, t);
      [s[0]] + t
  }

  /** A name at most the first of a sorted run may go in front of it. */
  lemma SortedBefore(x: Node, s: seq<Node>)
    requires SortedByName(s)
    requires s == [] || NameLe(x.name, s[0].name)
    ensures SortedByName([x] + s)
  {
    forall i, j | 0 <= i < j < |s| + 1 ensures NameLe(([x] + s)[i].name, ([x] + s)[j].name) {
      if i == 0 && j > 1 {
        NameLeTransitive(x.name, s[0].name, s[j - 1].name);
      }
    }
  }

  /** The head of a sorted run stays in front of the rest with `x` inserted,
      when `x` comes after it. */
  lemma SortedAfterHead(s: seq<Node>, x: Node, t: seq<Node>)
    requires s != [] && SortedByName(s) && SortedByName(t)
    requires NameLe(s[0].name, x.name)
    requires multiset(t) == multiset(s[1..]) + multiset{x}
    ensures SortedByName([s[0]] + t)
  {
    forall i, j | 0 <= i < j < |t| + 1 ensures NameLe(([s[0]] + t)[i].name, ([s[0]] + t)[j].name) {
      if i == 0 {
        var y := t[j - 1];
        assert y in multiset(t);
        if y != x {
          assert y in multiset(s[1..]);
          var k :| 0 <= k < |s[1..]| && s[1..][k] == y;
          assert s[k + 1] == y;
        }
      } else {
        assert ([s[0]] + t)[i] == t[i - 1];
      }
    }
  }

  /** `sorted(os.listdir(path))`: the entries in name order. */
  function SortByName(s: seq<Node>): (r: seq<Node>)
    ensures SortedByName(r)
    ensures multiset(r) == multiset(s)
    ensures forall x :: x in r <==> x in s
  {
    if s == [] then []
    else
      assert s == [s[0]] + s[1..];
      var r := Insert(s[0], SortByName(s[1..]));
      assert forall x :: x in r <==> x in multiset(r);
      r
  }

  // ---------- the entries of the index ----------

  /** An index entry: a link to a recipe page, or a folder with its own
      entries. */
  datatype Entry = Link(href: string, name: string) | Folder(name: string, entries: seq<Entry>)

  /** The link to the page of the recipe directory `name` inside the directory
      reached by `path` from the root: the page's path relative to the root,
      with every backslash turned into a slash. */
  function Href(path: seq<string>, name: string): (r: string)
    ensures '\\' !in r
  {
    ReplaceChar(Join(path + [name, name + PageSuffix], "/"), '\\', "/")
  }

  /** The entries of directory `d`, reached by `path` from the root. */
  function Listing(path: seq<string>, d: Node): seq<Entry>
    requires d.Dir?
    decreases d, 1
  {
    var s := SortByName(d.children);
    Entries(path, d, s)
  }

  /** The entries for the children `s` of `d`, in the order of `s`. */
  function Entries(path: seq<string>, d: Node, s: seq<Node>): seq<Entry>
    requires d.Dir? && forall x | x in s :: x in d.children
    decreases d, 0, |s|
  {
    if s == [] then []
    else
      assert s[0] in d.children;
      (if Shown(s[0]) then [EntryFor(path, s[0])] else []) + Entries(path, d, s[1..])
  }

  /** The entry for the shown directory `c`. */
  function EntryFor(path: seq<string>, c: Node): (e: Entry)
    requires c.Dir?
    ensures e.name == c.name
    ensures e.Link? <==> HasOwnPage(c)
    decreases c, 2
  {
    if HasOwnPage(c) then Link(Href(path, c.name), c.name)
    else Folder(c.name, Listing(path + [c.name], c))
  }

  // ---------- the text ----------

  /** The line for a link. The address and the name go in escaped: each reads
      back as itself, the address cannot end its attribute early and the name
      cannot open markup. */
  function LinkItem(href: string, name: string): (r: string)
    ensures exists h, n ::
              && r == "<li><a href=\"" + h + "\">" + n + "</a></li>"
              && Unescape(h) == href && '"' !in h
              && Unescape(n) == name && '<' !in n
  {
    var h, n := Escape(href), Escape(name);
    assert Unescape(h) == href && '"' !in h && Unescape(n) == name && '<' !in n by {
      UnescapeEscape(href);
      UnescapeEscape(name);
    }
    "<li><a href=\"" + h + "\">" + n + "</a></li>"
  }

  /** The opening line of a folder: its escaped name, then the nested list's
      opening tag. */
  function FolderOpen(name: string): (r: string)
    ensures exists n :: r == "<li class=\"folder\">" + n + "\n<ul>" && Unescape(n) == name && '<' !in n
  {
    UnescapeEscape(name);
    "<li class=\"folder\">" + Escape(name) + "\n<ul>"
  }

  const FolderClose := "</ul></li>"

  /** The index text for a tree of entries: one line per link, three parts
      per folder (its opening line, its own text, its closing tags), all joined
      with newlines. */
  function Render(es: seq<Entry>): string
    decreases es, 1
  {
    Join(Lines(es), "\n")
  }

  function Lines(es: seq<Entry>): seq<string>
    decreases es, 0
  {
    if es == [] then [] else EntryLines(es[0]) + Lines(es[1..])
  }

  function EntryLines(e: Entry): seq<string>
    decreases e
  {
    match e
    case Link(href, name) => [LinkItem(href, name)]
    case Folder(name, sub) => [FolderOpen(name), Render(sub), FolderClose]
  }

  /** `build_html_list` as the source writes it: the items are collected as
      strings while walking the sorted entries, and a folder's items enclose the
      text of the recursive call. The text is the rendering of `Listing`. */
  function BuildHtmlList(path: seq<string>, d: Node): (r: string)
    requires d.Dir?
    ensures r == Render(Listing(path, d))
    decreases d, 1
  {
    var s := SortByName(d.children);
    Join(ItemLines(path, d, s), "\n")
  }

  /** The items for the children `s` of `d`: the lines of their entries. */
  function ItemLines(path: seq<string>, d: Node, s: seq<Node>): (r: seq<string>)
    requires d.Dir? && forall x | x in s :: x in d.children
    ensures r == Lines(Entries(path, d, s))
    decreases d, 0, |s|
  {
    if s == [] then []
    else
      var c := s[0];
      var rest := ItemLines(path, d, s[1..]);
      assert c in d.children;
      var head := if Shown(c) then [EntryFor(path, c)] else [];
      LinesAppend(head, Entries(path, d, s[1..]));
      if Skipped(c.name) || !c.Dir? then rest
      else if HasOwnPage(c) then
        assert Lines(head) == EntryLines(EntryFor(path, c));
        [LinkItem(Href(path, c.name), c.name)] + rest
      else
        assert Lines(head) == EntryLines(EntryFor(path, c));
        [FolderOpen(c.name), BuildHtmlList(path + [c.name], c), FolderClose] + rest
  }

  lemma {:induction false} LinesAppend(a: seq<Entry>, b: seq<Entry>)
    ensures Lines(a + b) == Lines(a) + Lines(b)
  {
    if a != [] {
      assert (a + b)[0] == a[0];
      assert (a + b)[1..] == a[1..] + b;
      LinesAppend(a[1..], b);
    } else {
      assert a + b == b;
    }
  }

  // ---------- properties of the listing ----------

  /** No entry at any depth carries a skipped name. */
  predicate NoneSkipped(es: seq<Entry>) {
    forall i :: 0 <= i < |es| ==> !Skipped(es[i].name) && (es[i].Folder? ==> NoneSkipped(es[i].entries))
  }

  /** Every level of the tree is in name order. */
  predicate SortedDeep(es: seq<Entry>) {
    && (forall i, j :: 0 <= i < j < |es| ==> NameLe(es[i].name, es[j].name))
    && (forall i :: 0 <= i < |es| ==> es[i].Folder? ==> SortedDeep(es[i].entries))
  }

  /** Every entry of `Entries(path, d, s)` is the entry of a shown directory
      in `s`, so a file or a skipped name yields nothing. */
  lemma {:induction false} EntriesFrom(path: seq<string>, d: Node, s: seq<Node>)
    requires d.Dir? && forall x | x in s :: x in d.children
    ensures forall e | e in Entries(path, d, s) :: exists c :: c in s && Shown(c) && e == EntryFor(path, c)
    decreases |s|
  {
    if s != [] {
      EntriesFrom(path, d, s[1..]);
      forall e | e in Entries(path, d, s)
        ensures exists c :: c in s && Shown(c) && e == EntryFor(path, c)
      {
        if e !in Entries(path, d, s[1..]) {
          assert e == EntryFor(path, s[0]);
        } else {
          var c :| c in s[1..] && Shown(c) && e == EntryFor(path, c);
          assert c in s;
        }
      }
    }
  }

  /** Every shown directory in `s` has its entry in `Entries(path, d, s)`. */
  lemma {:induction false} EntriesCover(path: seq<string>, d: Node, s: seq<Node>)
    requires d.Dir? && forall x | x in s :: x in d.children
    ensures forall c | c in s && Shown(c) :: EntryFor(path, c) in Entries(path, d, s)
    decreases |s|
  {
    if s != [] {
      EntriesCover(path, d, s[1..]);
      forall c | c in s && Shown(c) ensures EntryFor(path, c) in Entries(path, d, s) {
        if c != s[0] {
          assert c in s[1..];
        }
      }
    }
  }

  /** Each entry of a directory's listing comes from one of its shown
      subdirectories: a link when that directory holds its own page, a folder
      with that directory's listing otherwise. */
  lemma ListingFromShownDirs(path: seq<string>, d: Node)
    requires d.Dir?
    ensures forall e | e in Listing(path, d) :: exists c :: c in d.children && Shown(c) && e == EntryFor(path, c)
  {
    var s := SortByName(d.children);
    EntriesFrom(path, d, s);
  }

  /** Every shown subdirectory has its entry in the listing. */
  lemma ListingCoversShownDirs(path: seq<string>, d: Node)
    requires d.Dir?
    ensures forall c | c in d.children && Shown(c) :: EntryFor(path, c) in Listing(path, d)
  {
    var s := SortByName(d.children);
    EntriesCover(path, d, s);
  }

  /** The number of shown directories among `s`. */
  function CountShown(s: seq<Node>): nat {
    if s == [] then 0 else (if Shown(s[0]) then 1 else 0) + CountShown(s[1..])
  }

  lemma {:induction false} CountShownInsert(x: Node, s: seq<Node>)
    requires SortedByName(s)
    ensures CountShown(Insert(x, s)) == (if Shown(x) then 1 else 0) + CountShown(s)
  {
    if s != [] && !NameLe(x.name, s[0].name) {
      CountShownInsert(x, s[1..]);
      assert Insert(x, s)[1..] == Insert(x, s[1..]);
    }
  }

  lemma {:induction false} CountShownSorted(s: seq<Node>)
    ensures CountShown(SortByName(s)) == CountShown(s)
  {
    if s != [] {
      CountShownSorted(s[1..]);
      CountShownInsert(s[0], SortByName(s[1..]));
    }
  }

  lemma {:induction false} EntriesCount(path: seq<string>, d: Node, s: seq<Node>)
    requires d.Dir? && forall x | x in s :: x in d.children
    ensures |Entries(path, d, s)| == CountShown(s)
    decreases |s|
  {
    if s != [] {
      EntriesCount(path, d, s[1..]);
    }
  }

  /** One entry per shown subdirectory: the listing is as long as the number of
      subdirectories whose names are not skipped. */
  lemma ListingCount(path: seq<string>, d: Node)
    requires d.Dir?
    ensures |Listing(path, d)| == CountShown(d.children)
  {
    var s := SortByName(d.children);
    EntriesCount(path, d, s);
    CountShownSorted(d.children);
  }

  /** No entry named `Index.html` or starting with `.` appears, at any depth. */
  lemma {:induction false} ListingNoneSkipped(path: seq<string>, d: Node)
    requires d.Dir?
    ensures NoneSkipped(Listing(path, d))
    decreases d, 1
  {
    var s := SortByName(d.children);
    EntriesNoneSkipped(path, d, s);
  }

  lemma {:induction false} EntriesNoneSkipped(path: seq<string>, d: Node, s: seq<Node>)
    requires d.Dir? && forall x | x in s :: x in d.children
    ensures NoneSkipped(Entries(path, d, s))
    decreases d, 0, |s|
  {
    if s != [] {
      var c := s[0];
      assert c in d.children;
      EntriesNoneSkipped(path, d, s[1..]);
      var head := if Shown(c) then [EntryFor(path, c)] else [];
      if Shown(c) && !HasOwnPage(c) {
        ListingNoneSkipped(path + [c.name], c);
      }
      assert NoneSkipped(head);
      NoneSkippedAppend(head, Entries(path, d, s[1..]));
    }
  }

  lemma NoneSkippedAppend(a: seq<Entry>, b: seq<Entry>)
    requires NoneSkipped(a) && NoneSkipped(b)
    ensures NoneSkipped(a + b)
  {
    forall i | 0 <= i < |a + b|
      ensures !Skipped((a + b)[i].name) && ((a + b)[i].Folder? ==> NoneSkipped((a + b)[i].entries))
    {
      if i >= |a| {
        assert (a + b)[i] == b[i - |a|];
      }
    }
  }

  /** Entries follow the name order at every level. */
  lemma {:induction false} ListingSorted(path: seq<string>, d: Node)
    requires d.Dir?
    ensures SortedDeep(Listing(path, d))
    decreases d, 1
  {
    var s := SortByName(d.children);
    EntriesSorted(path, d, s);
  }

  lemma {:induction false} EntriesSorted(path: seq<string>, d: Node, s: seq<Node>)
    requires d.Dir? && forall x | x in s :: x in d.children
    requires SortedByName(s)
    ensures SortedDeep(Entries(path, d, s))
    decreases d, 0, |s|
  {
    if s != [] {
      var c := s[0];
      assert c in d.children;
      var rest := Entries(path, d, s[1..]);
      assert SortedByName(s[1..]) by {
        forall i, j | 0 <= i < j < |s[1..]| ensures NameLe(s[1..][i].name, s[1..][j].name) {
          assert s[1..][i] == s[i + 1] && s[1..][j] == s[j + 1];
        }
      }
      EntriesSorted(path, d, s[1..]);
      if Shown(c) {
        var e := EntryFor(path, c);
        if !HasOwnPage(c) {
          ListingSorted(path + [c.name], c);
        }
        EntriesFrom(path, d, s[1..]);
        forall x | x in rest ensures NameLe(e.name, x.name) {
          var c' :| c' in s[1..] && Shown(c') && x == EntryFor(path, c');
          var j :| 0 <= j < |s[1..]| && s[1..][j] == c';
          assert s[j + 1] == c';
        }
        SortedCons(e, rest);
      }
    }
  }

  lemma SortedCons(e: Entry, rest: seq<Entry>)
    requires SortedDeep(rest)
    requires e.Folder? ==> SortedDeep(e.entries)
    requires forall x | x in rest :: NameLe(e.name, x.name)
    ensures SortedDeep([e] + rest)
  {
    var t := [e] + rest;
    forall i, j | 0 <= i < j < |t| ensures NameLe(t[i].name, t[j].name) {
      if i == 0 {
        assert t[j] in rest;
      } else {
        assert t[i] == rest[i - 1] && t[j] == rest[j - 1];
      }
    }
    forall i | 0 <= i < |t| && t[i].Folder? ensures SortedDeep(t[i].entries) {
      if i > 0 {
        assert t[i] == rest[i - 1];
      }
    }
  }
}

=== FILE: name_order.dfy ===
/**
 The order `sorted` puts directory entry names in: Python compares strings
 character by character on code points, and a proper prefix comes first.
 Dafny's `<` on sequences means "proper prefix", so the order is spelled out.
 */
module NameOrder {

  /** `a <= b` in Python's string order. */
  predicate NameLe(a: string, b: string) {
    a == [] || (b != [] && (a[0] < b[0] || (a[0] == b[0] && NameLe(a[1..], b[1..]))))
  }

  /** Any two names are comparable. */
  lemma {:induction false} NameLeTotal(a: string, b: string)
    ensures NameLe(a, b) || NameLe(b, a)
  {
    if a != [] && b != [] && a[0] == b[0] {
      NameLeTotal(a[1..], b[1..]);
    }
  }

  lemma {:induction false} NameLeTransitive(a: string, b: string, c: string)
    requires NameLe(a, b) && NameLe(b, c)
    ensures NameLe(a, c)
  {
    if a != [] && b != [] && c != [] && a[0] == b[0] && b[0] == c[0] {
      NameLeTransitive(a[1..], b[1..], c[1..]);
    }
  }

  /** Two names that are each at most the other are the same name. */
  lemma {:induction false} NameLeAntisymmetric(a: string, b: string)
    requires NameLe(a, b) && NameLe(b, a)
    ensures a == b
  {
    if a != [] && b != [] {
      NameLeAntisymmetric(a[1..], b[1..]);
      assert a == [a[0]] + a[1..] && b == [b[0]] + b[1..];
    }
  }

  /** A name is ordered after each of its proper prefixes. */
  lemma {:induction false} PrefixFirst(a: string, b: string)
    requires a <= b
    ensures NameLe(a, b)
  {
    if a != [] {
      assert a[1..] <= b[1..];
      PrefixFirst(a[1..], b[1..]);
    }
  }
}

=== FILE: options.dfy ===
/** An optional value, for results that may be absent (no image found, a list
    that does not decode). */
module Options {

  datatype Option<+T> = None | Some(value: T)
}

=== FILE: parser_properties.dfy ===
/**
 Properties of `parse_recipe`: how the title is chosen, what blank lines do,
 what each kind of line does to the record and the cursor, and how the lists
 grow. The per-line facts are stated on `Step`; the whole-file facts follow
 from the description in `ParserSpec`.
 */
module ParserProperties {
  import opened Strings
  import opened RecipeParser
  import opened ParserSpec

  /** The loop continued from state `st` over further lines. */
  function RunFrom(st: State, lines: seq<string>): State {
    if lines == [] then st
    else Step(RunFrom(st, lines[..|lines| - 1]), lines[|lines| - 1])
  }

  /** Reading `a + b` is reading `a`, then carrying on over `b`. */
  lemma {:induction false} RunAppend(a: seq<string>, b: seq<string>)
    ensures Run(a + b) == RunFrom(Run(a), b)
  {
    if b == [] {
      assert a + b == a;
    } else {
      var init := b[..|b| - 1];
      assert (a + b)[..|a + b| - 1] == a + init;
      assert (a + b)[|a + b| - 1] == b[|b| - 1];
      RunAppend(a, init);
    }
  }

  /** The scan for the first non-blank line stops at the first line that is
      not all whitespace. */
  lemma {:induction false} FirstNonBlankAt(lines: seq<string>, k: nat)
    requires k < |lines| && !AllSpace(lines[k])
    requires forall i :: 0 <= i < k ==> AllSpace(lines[i])
    ensures FirstNonBlank(lines) == Strip(lines[k])
  {
    StripEmptyIffBlank(lines[0]);
    if k > 0 {
      FirstNonBlankAt(lines[1..], k - 1);
    }
  }

  /** The title is the first line that is not blank, stripped, whatever it
      says: a line such as `Serves: 4` or `Ingredients:` becomes the title if it
      comes first. */
  lemma TitleIsFirstNonBlank(lines: seq<string>, k: nat)
    requires k < |lines| && !AllSpace(lines[k])
    requires forall i :: 0 <= i < k ==> AllSpace(lines[i])
    ensures Parse(lines).title == Strip(lines[k])
  {
    ParseMatchesSpec(lines);
    FirstNonBlankAt(lines, k);
  }

  /** A file with no non-blank line parses to the empty record. */
  lemma {:induction false} BlankFileIsEmpty(lines: seq<string>)
    requires forall i :: 0 <= i < |lines| ==> AllSpace(lines[i])
    ensures Parse(lines) == EmptyRecipe
    ensures Run(lines) == Start
  {
    if lines != [] {
      var init := lines[..|lines| - 1];
      BlankFileIsEmpty(init);
      StripEmptyIffBlank(lines[|lines| - 1]);
    }
  }

  /** A title, once taken, is never replaced by anything that follows. */
  lemma TitleNeverChanges(a: seq<string>, b: seq<string>, k: nat)
    requires k < |a| && !AllSpace(a[k])
    ensures Parse(a + b).title == Parse(a).title
  {
    var j := FirstNonBlankIndex(a, k);
    assert (a + b)[j] == a[j];
    TitleIsFirstNonBlank(a, j);
    TitleIsFirstNonBlank(a + b, j);
  }

  /** The index of the first non-blank line, given some non-blank line `k`. */
  lemma {:induction false} FirstNonBlankIndex(a: seq<string>, k: nat) returns (j: nat)
    requires k < |a| && !AllSpace(a[k])
    ensures j <= k && !AllSpace(a[j])
    ensures forall i :: 0 <= i < j ==> AllSpace(a[i])
  {
    if k == 0 || forall i :: 0 <= i < k ==> AllSpace(a[i]) {
      j := k;
    } else {
      var i :| 0 <= i < k && !AllSpace(a[i]);
      j := FirstNonBlankIndex(a, i);
    }
  }

  /** A blank or whitespace-only line changes nothing: not the record, not the
      cursor, not whether the title has been taken. */
  lemma BlankStepIsIdentity(st: State, raw: string)
    requires AllSpace(raw)
    ensures Step(st, raw) == st
  {
    StripEmptyIffBlank(raw);
  }

  /** Removing a blank line anywhere in a file does not change the parse. */
  lemma BlankLineIgnored(a: seq<string>, raw: string, b: seq<string>)
    requires AllSpace(raw)
    ensures Parse(a + [raw] + b) == Parse(a + b)
  {
    RunAppend(a + [raw], b);
    RunAppend(a, b);
    assert (a + [raw])[..|a|] == a;
    BlankStepIsIdentity(Run(a), raw);
  }

  /** A metadata line after the title sets its own field, to the stripped text
      after the label, and changes nothing else, whatever section the cursor is
      in. */
  lemma MetadataSetsOnlyItsField(st: State, raw: string)
    requires st.titleTaken
    ensures var line := Strip(raw);
            var rec := st.recipe;
            && (StartsWith(line, ServesLabel) ==> Step(st, raw) == st.(recipe := rec.(serves := Strip(line[|ServesLabel|..]))))
            && (StartsWith(line, ActiveTimeLabel) ==> Step(st, raw) == st.(recipe := rec.(prep := Strip(line[|ActiveTimeLabel|..]))))
            && (StartsWith(line, TotalTimeLabel) ==> Step(st, raw) == st.(recipe := rec.(cook := Strip(line[|TotalTimeLabel|..]))))
  {
    var line := Strip(raw);
    LabelsShaped();
    LeadChars(line);
    if StartsWith(line, ServesLabel) {
      LabelColon(line, ServesLabel);
    } else if StartsWith(line, ActiveTimeLabel) {
      LabelColon(line, ActiveTimeLabel);
    } else if StartsWith(line, TotalTimeLabel) {
      LabelColon(line, TotalTimeLabel);
    }
  }

  /** A field changes only on a line carrying its label, after the title; so
      the last such line wins. */
  lemma FieldChangesOnlyOnItsLabel(st: State, raw: string)
    ensures var next := Step(st, raw).recipe;
            var line := Strip(raw);
            && (next.serves != st.recipe.serves ==> st.titleTaken && StartsWith(line, ServesLabel))
            && (next.prep != st.recipe.prep ==> st.titleTaken && StartsWith(line, ActiveTimeLabel))
            && (next.cook != st.recipe.cook ==> st.titleTaken && StartsWith(line, TotalTimeLabel))
  {
    LeadChars(Strip(raw));
  }

  /** A section header after the title only moves the cursor. */
  lemma HeaderOnlyMovesCursor(st: State, raw: string)
    requires st.titleTaken
    ensures var line := Strip(raw);
            && (StartsWith(line, IngredientsHeader) ==> Step(st, raw) == st.(section := InIngredients))
            && (StartsWith(line, DirectionsHeader) ==> Step(st, raw) == st.(section := InDirections))
            && (StartsWith(line, NotesHeader) ==> Step(st, raw) == st.(section := InNotes))
  {
    LeadChars(Strip(raw));
  }

  /** Under `Ingredients:` a `-` line appends its stripped rest to the
      ingredients; under `Notes:` to the notes; under `Directions:` a line that
      starts with a digit appends its direction text. Nothing else changes. */
  lemma ItemLineAppends(st: State, raw: string)
    requires st.titleTaken
    ensures var line := Strip(raw);
            var rec := st.recipe;
            && (st.section == InIngredients && StartsWith(line, "-") ==>
                  Step(st, raw) == st.(recipe := rec.(ingredients := rec.ingredients + [Strip(line[1..])])))
            && (st.section == InNotes && StartsWith(line, "-") ==>
                  Step(st, raw) == st.(recipe := rec.(notes := rec.notes + [Strip(line[1..])])))
            && (st.section == InDirections && |line| > 0 && IsDigit(line[0]) ==>
                  Step(st, raw) == st.(recipe := rec.(directions := rec.directions + [DirectionText(line)])))
  {
    LeadChars(Strip(raw));
  }

  /** A line that no rule takes changes nothing; in particular a `-` line
      outside `Ingredients:` and `Notes:`, and a numbered line outside
      `Directions:`, are dropped. */
  lemma UnmatchedLineIsDropped(st: State, raw: string)
    requires st.titleTaken
    requires Classify(Strip(raw)).Unmatched? || (!Classify(Strip(raw)).Meta? && !Classify(Strip(raw)).Header? && !Accepts(st.section, Classify(Strip(raw))))
    ensures Step(st, raw) == st
  {
    var line := Strip(raw);
    if line != [] {
      DispatchIsApply(st, line);
    }
  }

  /** One line never shortens a list or rewrites an entry already in it. */
  lemma StepKeepsEntries(st: State, raw: string)
    ensures var next := Step(st, raw).recipe;
            && st.recipe.ingredients <= next.ingredients
            && st.recipe.directions <= next.directions
            && st.recipe.notes <= next.notes
            && (st.titleTaken ==> next.title == st.recipe.title)
  {
    LeadChars(Strip(raw));
  }

  /** Entries are only ever appended: what `a` put in each list is still the
      start of that list after any further lines `b`. */
  lemma {:induction false} EntriesKeepFileOrder(a: seq<string>, b: seq<string>)
    ensures Parse(a).ingredients <= Parse(a + b).ingredients
    ensures Parse(a).directions <= Parse(a + b).directions
    ensures Parse(a).notes <= Parse(a + b).notes
  {
    RunAppend(a, b);
    RunFromKeepsEntries(Run(a), b);
  }

  lemma {:induction false} RunFromKeepsEntries(st: State, b: seq<string>)
    ensures st.recipe.ingredients <= RunFrom(st, b).recipe.ingredients
    ensures st.recipe.directions <= RunFrom(st, b).recipe.directions
    ensures st.recipe.notes <= RunFrom(st, b).recipe.notes
  {
    if b != [] {
      var init := b[..|b| - 1];
      RunFromKeepsEntries(st, init);
      StepKeepsEntries(RunFrom(st, init), b[|b| - 1]);
    }
  }

  /** A numbered line without any `.` is kept whole, digits included. */
  lemma DirectionWithoutPeriod(line: string)
    requires Strip(line) == line && '.' !in line
    ensures DirectionText(line) == line
  {
    assert line[0..] == line;
  }

  /** Otherwise the step text starts after the first `.` anywhere in the line,
      which need not be the one after the step number. */
  lemma DirectionAfterFirstPeriod(line: string, k: nat)
    requires k < |line| && line[k] == '.' && '.' !in line[..k]
    ensures DirectionText(line) == Strip(line[k + 1..])
  {
    AfterFirstAt(line, '.', k);
  }
}

=== FILE: parser_spec.dfy ===
/**
 A declarative description of what `parse_recipe` produces, field by field, and
 the proof that the line-by-line pass in `RecipeParser` computes exactly that.

 The description works on the *significant* lines of a file (stripped, blank
 ones dropped). The first significant line is the title; the rest form the
 body. Each body line is classified on its own, without looking at the cursor.
 The cursor before a body line is the section of the last header above it; a
 metadata field is the value of the last line carrying its label; a list holds,
 in file order, the text of every bullet or numbered line that its section
 accepts and that sits under that section's header.
 */
module ParserSpec {
  import opened Strings
  import opened RecipeParser

  /** The stripped, non-blank lines of a file, in file order. */
  function Significant(lines: seq<string>): (r: seq<string>)
    ensures forall i :: 0 <= i < |r| ==> r[i] != []
  {
    if lines == [] then []
    else
      var line := Strip(lines[0]);
      (if line == [] then [] else [line]) + Significant(lines[1..])
  }

  /** The first non-blank line, stripped, scanning from the top; empty when the
      file is blank throughout. */
  function FirstNonBlank(lines: seq<string>): string {
    if lines == [] then ""
    else if Strip(lines[0]) != [] then Strip(lines[0])
    else FirstNonBlank(lines[1..])
  }

  /** The significant lines after the title. */
  function Body(lines: seq<string>): seq<string> {
    var s := Significant(lines);
    if s == [] then [] else s[1..]
  }

  datatype Field = Serves | Prep | Cook

  /** What a stripped line is, whatever section it is in. The tests are the
      source's, in the source's order. */
  datatype Kind =
    | Meta(field: Field, value: string)
    | Header(section: Section)
    | Bullet(text: string)
    | Numbered(text: string)
    | Unmatched

  function Classify(line: string): Kind {
    LabelsShaped();
    if StartsWith(line, ServesLabel) then
      LabelColon(line, ServesLabel);
      Meta(Serves, MetaValue(line))
    else if StartsWith(line, ActiveTimeLabel) then
      LabelColon(line, ActiveTimeLabel);
      Meta(Prep, MetaValue(line))
    else if StartsWith(line, TotalTimeLabel) then
      LabelColon(line, TotalTimeLabel);
      Meta(Cook, MetaValue(line))
    else if StartsWith(line, IngredientsHeader) then Header(InIngredients)
    else if StartsWith(line, DirectionsHeader) then Header(InDirections)
    else if StartsWith(line, NotesHeader) then Header(InNotes)
    else if StartsWith(line, "-") then Bullet(BulletText(line))
    else if |line| > 0 && IsDigit(line[0]) then Numbered(DirectionText(line))
    else Unmatched
  }

  /** Which kind of item line each section collects. */
  predicate Accepts(section: Section, k: Kind) {
    || (section == InIngredients && k.Bullet?)
    || (section == InDirections && k.Numbered?)
    || (section == InNotes && k.Bullet?)
  }

  /** The section named by the last header line of `body`. */
  function Cursor(body: seq<string>): Section {
    if body == [] then NoSection
    else
      var k := Classify(body[|body| - 1]);
      if k.Header? then k.section else Cursor(body[..|body| - 1])
  }

  /** The value of the last metadata line of `body` for field `f`. */
  function FieldValue(body: seq<string>, f: Field): string {
    if body == [] then ""
    else
      var k := Classify(body[|body| - 1]);
      if k.Meta? && k.field == f then k.value else FieldValue(body[..|body| - 1], f)
  }

  /** The items `section` collects from `body`, in file order: one for every line
      that the section accepts and that the cursor places in that section. */
  function Items(body: seq<string>, section: Section): seq<string> {
    if body == [] then []
    else
      var init := body[..|body| - 1];
      var k := Classify(body[|body| - 1]);
      Items(init, section) + (if Cursor(init) == section && Accepts(section, k) then [k.text] else [])
  }

  /** The recipe the file describes. */
  function Spec(lines: seq<string>): Recipe {
    var body := Body(lines);
    Recipe(
      FirstNonBlank(lines),
      FieldValue(body, Serves),
      FieldValue(body, Prep),
      FieldValue(body, Cook),
      Items(body, InIngredients),
      Items(body, InDirections),
      Items(body, InNotes))
  }

  lemma {:induction false} SignificantSnoc(lines: seq<string>, raw: string)
    ensures Significant(lines + [raw]) == Significant(lines) + (if Strip(raw) == [] then [] else [Strip(raw)])
  {
    if lines == [] {
      assert lines + [raw] == [raw];
      assert [raw][1..] == [];
    } else {
      assert (lines + [raw])[0] == lines[0];
      assert (lines + [raw])[1..] == lines[1..] + [raw];
      SignificantSnoc(lines[1..], raw);
    }
  }

  /** The title scan agrees with the head of the significant lines. */
  lemma {:induction false} FirstNonBlankIsHead(lines: seq<string>)
    ensures FirstNonBlank(lines) == if Significant(lines) == [] then "" else Significant(lines)[0]
  {
    if lines != [] {
      FirstNonBlankIsHead(lines[1..]);
    }
  }

  /** `st` holds the title `title`, and the cursor and record fields that the
      body lines `body` call for. */
  predicate Describes(st: State, title: string, body: seq<string>) {
    && st.section == Cursor(body)
    && st.recipe == Recipe(
         title,
         FieldValue(body, Serves),
         FieldValue(body, Prep),
         FieldValue(body, Cook),
         Items(body, InIngredients),
         Items(body, InDirections),
         Items(body, InNotes))
  }

  /** Applying one more body line keeps the description in step. */
  lemma ApplyExtends(st: State, title: string, body: seq<string>, line: string)
    requires Describes(st, title, body)
    ensures Describes(Apply(st, Classify(line)), title, body + [line])
  {
    var k := Classify(line);
    SnocFacts(body, line);
    match k
    case Meta(f, v) =>
    case Header(section) =>
    case _ =>
  }

  /** How each part of the description grows by one body line. */
  lemma SnocFacts(body: seq<string>, line: string)
    ensures var k := Classify(line);
            var next := body + [line];
            && Cursor(next) == (if k.Header? then k.section else Cursor(body))
            && (forall f :: FieldValue(next, f) == if k.Meta? && k.field == f then k.value else FieldValue(body, f))
            && (forall section :: Items(next, section) ==
                  Items(body, section) + (if Cursor(body) == section && Accepts(section, k) then [k.text] else []))
  {
    assert (body + [line])[..|body|] == body;
  }

  /** The pass keeps, after every prefix of the file: the title flag set exactly
      when a non-blank line has been seen, and the state described by the title
      and the body seen so far. */
  lemma {:induction false} RunMatchesSpec(lines: seq<string>)
    ensures Invariant(lines)
  {
    if lines != [] {
      var init := lines[..|lines| - 1];
      var raw := lines[|lines| - 1];
      assert lines == init + [raw];
      RunMatchesSpec(init);
      var line := Strip(raw);
      if line == [] {
        BlankKeepsInvariant(init, raw);
      } else if !Run(init).titleTaken {
        TitleLineKeepsInvariant(init, raw);
      } else {
        BodyLineKeepsInvariant(init, raw);
      }
    }
  }

  /** What the pass keeps after the lines `lines`. */
  predicate Invariant(lines: seq<string>) {
    && (Run(lines).titleTaken <==> Significant(lines) != [])
    && Describes(Run(lines), FirstNonBlank(lines), Body(lines))
  }

  lemma BlankKeepsInvariant(init: seq<string>, raw: string)
    requires Invariant(init) && Strip(raw) == []
    ensures Invariant(init + [raw])
  {
    var lines := init + [raw];
    assert lines[..|lines| - 1] == init;
    assert Run(lines) == Run(init);
    SignificantSnoc(init, raw);
    assert Significant(lines) == Significant(init);
    FirstNonBlankIsHead(init);
    FirstNonBlankIsHead(lines);
    assert FirstNonBlank(lines) == FirstNonBlank(init);
    assert Body(lines) == Body(init);
  }

  lemma TitleLineKeepsInvariant(init: seq<string>, raw: string)
    requires Invariant(init) && Strip(raw) != [] && !Run(init).titleTaken
    ensures Invariant(init + [raw])
  {
    var lines := init + [raw];
    assert lines[..|lines| - 1] == init;
    SignificantSnoc(init, raw);
    FirstNonBlankIsHead(lines);
    assert Significant(lines) == [Strip(raw)];
  }

  lemma BodyLineKeepsInvariant(init: seq<string>, raw: string)
    requires Invariant(init) && Strip(raw) != [] && Run(init).titleTaken
    ensures Invariant(init + [raw])
  {
    var lines := init + [raw];
    var line := Strip(raw);
    var st := Run(init);
    assert lines[..|lines| - 1] == init;
    assert Run(lines) == Dispatch(st, line);
    BodySnoc(init, raw);
    DispatchIsApply(st, line);
    ApplyExtends(st, FirstNonBlank(init), Body(init), line);
  }

  /** After the title, a non-blank line extends the body and keeps the title. */
  lemma BodySnoc(init: seq<string>, raw: string)
    requires Strip(raw) != [] && Significant(init) != []
    ensures Significant(init + [raw]) != []
    ensures FirstNonBlank(init + [raw]) == FirstNonBlank(init)
    ensures Body(init + [raw]) == Body(init) + [Strip(raw)]
  {
    var lines := init + [raw];
    var line := Strip(raw);
    SignificantSnoc(init, raw);
    var seen := Significant(init);
    assert Significant(lines) == seen + [line];
    FirstNonBlankIsHead(init);
    FirstNonBlankIsHead(lines);
    assert (seen + [line])[1..] == seen[1..] + [line];
  }

  /** What a body line does to the state, given its classification: a label
      sets its field, a header moves the cursor, an item line accepted by the
      current section is appended to that section's list, and anything else
      changes nothing. */
  function Apply(st: State, k: Kind): (r: State)
    ensures r.titleTaken == st.titleTaken && r.recipe.title == st.recipe.title
  {
    var rec := st.recipe;
    match k
    case Meta(Serves, v) => st.(recipe := rec.(serves := v))
    case Meta(Prep, v) => st.(recipe := rec.(prep := v))
    case Meta(Cook, v) => st.(recipe := rec.(cook := v))
    case Header(section) => st.(section := section)
    case Bullet(text) =>
      if st.section == InIngredients then st.(recipe := rec.(ingredients := rec.ingredients + [text]))
      else if st.section == InNotes then st.(recipe := rec.(notes := rec.notes + [text]))
      else st
    case Numbered(text) =>
      if st.section == InDirections then st.(recipe := rec.(directions := rec.directions + [text]))
      else st
    case Unmatched => st
  }

  /** Once the title is taken, the source's chain of tests on a non-blank line
      amounts to classifying the line and applying its kind. */
  lemma DispatchIsApply(st: State, line: string)
    requires line != []
    ensures Dispatch(st, line) == Apply(st, Classify(line))
  {
    if IsLabelled(line) {
      DispatchLabelled(st, line);
    } else if IsHeader(line) {
      DispatchHeader(st, line);
    } else {
      DispatchItem(st, line);
    }
  }

  predicate IsLabelled(line: string) {
    StartsWith(line, ServesLabel) || StartsWith(line, ActiveTimeLabel) || StartsWith(line, TotalTimeLabel)
  }

  predicate IsHeader(line: string) {
    StartsWith(line, IngredientsHeader) || StartsWith(line, DirectionsHeader) || StartsWith(line, NotesHeader)
  }

  lemma DispatchLabelled(st: State, line: string)
    requires line != [] && IsLabelled(line)
    ensures Dispatch(st, line) == Apply(st, Classify(line))
  {
  }

  lemma DispatchHeader(st: State, line: string)
    requires line != [] && !IsLabelled(line) && IsHeader(line)
    ensures Dispatch(st, line) == Apply(st, Classify(line))
  {
  }

  lemma DispatchItem(st: State, line: string)
    requires line != [] && !IsLabelled(line) && !IsHeader(line)
    ensures Dispatch(st, line) == Apply(st, Classify(line))
  {
    if StartsWith(line, "-") {
      DispatchBullet(st, line);
    } else if IsDigit(line[0]) {
      DispatchNumbered(st, line);
    } else {
      DispatchUnmatched(st, line);
    }
  }

  lemma DispatchNumbered(st: State, line: string)
    requires line != [] && !IsLabelled(line) && !IsHeader(line) && !StartsWith(line, "-") && IsDigit(line[0])
    ensures Dispatch(st, line) == Apply(st, Classify(line))
  {
    assert Classify(line) == Numbered(DirectionText(line));
  }

  lemma DispatchUnmatched(st: State, line: string)
    requires line != [] && !IsLabelled(line) && !IsHeader(line) && !StartsWith(line, "-") && !IsDigit(line[0])
    ensures Dispatch(st, line) == Apply(st, Classify(line))
  {
    assert Classify(line) == Unmatched;
  }

  lemma DispatchBullet(st: State, line: string)
    requires line != [] && !IsLabelled(line) && !IsHeader(line) && StartsWith(line, "-")
    ensures Dispatch(st, line) == Apply(st, Classify(line))
  {
    assert line[0] == line[..1][0] == '-';
    assert Classify(line) == Bullet(BulletText(line));
  }

  /** `parse_recipe` returns the recipe the file describes. */
  lemma ParseMatchesSpec(lines: seq<string>)
    ensures Parse(lines) == Spec(lines)
  {
    RunMatchesSpec(lines);
  }
}

=== FILE: recipe_page.dfy ===
/**
 The parts of a recipe page (`recipe_to_html` in Build.py) that carry recipe
 data, without the fixed HTML around them: the stylesheet link, the title
 (used twice, in the head and as the heading), the optional photo, the three
 metadata values, and the three lists.

 The title and metadata go into the page as they are. Every list entry goes
 through `html.escape` inside its own `<li>` item. Whether a photo file exists
 is a question to the file system, so the model takes the set of file names
 present in the recipe's directory as a parameter; likewise the stylesheet's
 relative link is a parameter.
 */
module RecipePage {
  import opened Options
  import opened Strings
  import opened RecipeParser
  import opened ParserSpec
  import opened HtmlEscape

  /** The photo extensions, in the order they are tried. */
  const ImageExtensions := [".jpg", ".jpeg", ".png", ".webp"]

  /** The first of `base` + extension, in the order of `exts`, that is among the
      files present. */
  function FirstPresent(base: string, exts: seq<string>, present: set<string>): (r: Option<string>)
    ensures r.None? <==> forall i :: 0 <= i < |exts| ==> base + exts[i] !in present
    ensures r.Some? ==> exists i :: 0 <= i < |exts| && r.value == base + exts[i] && FirstHit(base, exts, present, i)
  {
    if exts == [] then None
    else if base + exts[0] in present then
      assert FirstHit(base, exts, present, 0);
      Some(base + exts[0])
    else
      var r := FirstPresent(base, exts[1..], present);
      if r.Some? then
        var i :| 0 <= i < |exts[1..]| && r.value == base + exts[1..][i] && FirstHit(base, exts[1..], present, i);
        assert FirstHit(base, exts, present, i + 1) by {
          forall j | 0 <= j < i + 1 ensures base + exts[j] !in present {
            if j > 0 {
              assert exts[j] == exts[1..][j - 1];
            }
          }
        }
        r
      else
        r
  }

  /** `base + exts[i]` is present and no earlier candidate is. */
  predicate FirstHit(base: string, exts: seq<string>, present: set<string>, i: nat)
    requires i < |exts|
  {
    base + exts[i] in present && forall j :: 0 <= j < i ==> base + exts[j] !in present
  }

  /** The photo for the recipe file `base`.txt: the first of `base`.jpg,
      `base`.jpeg, `base`.png and `base`.webp present in its directory. */
  function FindImage(base: string, present: set<string>): (r: Option<string>)
    ensures r.None? <==> forall i :: 0 <= i < |ImageExtensions| ==> base + ImageExtensions[i] !in present
    ensures r.Some? ==> exists i :: 0 <= i < |ImageExtensions|
                                    && r.value == base + ImageExtensions[i]
                                    && FirstHit(base, ImageExtensions, present, i)
    ensures base + ".jpg" in present ==> r == Some(base + ".jpg")
  {
    assert ImageExtensions[0] == ".jpg";
    FirstPresent(base, ImageExtensions, present)
  }

  datatype Image = Image(src: string, alt: string)

  /** The data-carrying parts of a recipe page. */
  datatype Page = Page(
    stylesheet: string,
    headTitle: string,
    heading: string,
    image: Option<Image>,
    serves: string,
    prep: string,
    cook: string,
    ingredients: string,
    directions: string,
    notes: string)

  /** `recipe_to_html`: the page for `recipe`, whose file is `base`.txt in a
      directory holding the files `present`, with `stylesheet` the relative link
      to the stylesheet. The title and metadata go in as they are; the photo,
      if any, is the one `FindImage` picks, described by the title; each list
      reads back as the recipe's own list, holds no markup but its item
      tags, and has every quote, `&` and `>` of its entries escaped. */
  function RecipeToHtml(recipe: Recipe, base: string, present: set<string>, stylesheet: string): (p: Page)
    ensures p.stylesheet == stylesheet
    ensures p.headTitle == recipe.title && p.heading == recipe.title
    ensures p.serves == recipe.serves && p.prep == recipe.prep && p.cook == recipe.cook
    ensures p.image.None? <==> FindImage(base, present).None?
    ensures p.image.Some? ==> p.image.value == Image(FindImage(base, present).value, recipe.title)
    ensures DecodeItems(p.ingredients) == Some(recipe.ingredients)
    ensures DecodeItems(p.directions) == Some(recipe.directions)
    ensures DecodeItems(p.notes) == Some(recipe.notes)
    ensures TagsOnly(p.ingredients) && TagsOnly(p.directions) && TagsOnly(p.notes)
    ensures FullyEscaped(p.ingredients) && FullyEscaped(p.directions) && FullyEscaped(p.notes)
  {
    var image := match FindImage(base, present)
                 case None => None
                 case Some(file) => Some(Image(file, recipe.title));
    DecodeItemList(recipe.ingredients);
    DecodeItemList(recipe.directions);
    DecodeItemList(recipe.notes);
    Page(
      stylesheet,
      recipe.title,
      recipe.title,
      image,
      recipe.serves,
      recipe.prep,
      recipe.cook,
      ItemList(recipe.ingredients),
      ItemList(recipe.directions),
      ItemList(recipe.notes))
  }

  /** The same text is put on the page differently as a title and as an
      ingredient: verbatim in the heading, escaped in the list; the two agree
      exactly when the text holds none of the five special characters. */
  lemma TitleRawItemsEscaped(t: string, base: string, present: set<string>, stylesheet: string)
    ensures var p := RecipeToHtml(EmptyRecipe.(title := t, ingredients := [t]), base, present, stylesheet);
            && p.heading == t
            && p.headTitle == t
            && p.ingredients == "<li>" + Escape(t) + "</li>"
            && (Escape(t) == t <==> forall i :: 0 <= i < |t| ==> !IsSpecial(t[i]))
  {
    var p := RecipeToHtml(EmptyRecipe.(title := t, ingredients := [t]), base, present, stylesheet);
    assert p.ingredients == "<li>" + Escape(t) + "</li>" by {
      assert p.ingredients == ItemList([t]);
      assert [t][1..] == [];
      assert ItemList([t]) == Item(t);
    }
    EscapeUnchangedIff(t);
  }

  /** The page for a recipe file, from its lines. */
  function RecipeFilePage(lines: seq<string>, base: string, present: set<string>, stylesheet: string): Page {
    RecipeToHtml(Parse(lines), base, present, stylesheet)
  }

  /** End to end: the ingredient list on the page of a recipe file reads back
      as the bullet lines found under its `Ingredients:` header, and likewise
      for the steps and the notes. */
  lemma FilePageLists(lines: seq<string>, base: string, present: set<string>, stylesheet: string)
    ensures var p := RecipeFilePage(lines, base, present, stylesheet);
            var body := Body(lines);
            && DecodeItems(p.ingredients) == Some(Items(body, InIngredients))
            && DecodeItems(p.directions) == Some(Items(body, InDirections))
            && DecodeItems(p.notes) == Some(Items(body, InNotes))
            && p.heading == FirstNonBlank(lines)
  {
    ParseMatchesSpec(lines);
  }
}

=== FILE: recipe_parser.dfy ===
/**
 The recipe text parser (`parse_recipe` in Build.py): a single pass over the
 lines of a recipe file that fills a recipe record. The pass keeps two pieces of
 state besides the record: whether the title has been taken, and which section
 (if any) the cursor is in. Each stripped, non-blank line is classified by a
 fixed chain of literal-prefix tests and the first test that matches decides
 what the line does.

 Reading the file is left to the caller: the input is the sequence of its lines.
 */
module RecipeParser {
  import opened Strings

  /** The section cursor. */
  datatype Section = NoSection | InIngredients | InDirections | InNotes

  /** The parsed recipe; every field starts empty and is never absent. */
  datatype Recipe = Recipe(
    title: string,
    serves: string,
    prep: string,
    cook: string,
    ingredients: seq<string>,
    directions: seq<string>,
    notes: seq<string>)

  const EmptyRecipe := Recipe("", "", "", "", [], [], [])

  /** Everything the loop carries from one line to the next. */
  datatype State = State(recipe: Recipe, section: Section, titleTaken: bool)

  const Start := State(EmptyRecipe, NoSection, false)

  const ServesLabel := "Serves:"
  const ActiveTimeLabel := "Active Time:"
  const TotalTimeLabel := "Total Time:"
  const IngredientsHeader := "Ingredients:"
  const DirectionsHeader := "Directions:"
  const NotesHeader := "Notes:"

  /** Every label and header ends in its only colon. */
  predicate LabelShaped(tag: string) {
    |tag| > 0 && tag[|tag| - 1] == ':' && ':' !in tag[..|tag| - 1]
  }

  lemma LabelsShaped()
    ensures LabelShaped(ServesLabel) && LabelShaped(ActiveTimeLabel) && LabelShaped(TotalTimeLabel)
  {
  }

  /** The first character tells the labels, headers and bullets apart. */
  lemma LeadChars(line: string)
    ensures StartsWith(line, ServesLabel) ==> line[0] == 'S'
    ensures StartsWith(line, ActiveTimeLabel) ==> line[0] == 'A'
    ensures StartsWith(line, TotalTimeLabel) ==> line[0] == 'T'
    ensures StartsWith(line, IngredientsHeader) ==> line[0] == 'I'
    ensures StartsWith(line, DirectionsHeader) ==> line[0] == 'D'
    ensures StartsWith(line, NotesHeader) ==> line[0] == 'N'
    ensures StartsWith(line, "-") ==> line[0] == '-'
  {
    if StartsWith(line, ServesLabel) { LeadChar(line, ServesLabel); }
    if StartsWith(line, ActiveTimeLabel) { LeadChar(line, ActiveTimeLabel); }
    if StartsWith(line, TotalTimeLabel) { LeadChar(line, TotalTimeLabel); }
    if StartsWith(line, IngredientsHeader) { LeadChar(line, IngredientsHeader); }
    if StartsWith(line, DirectionsHeader) { LeadChar(line, DirectionsHeader); }
    if StartsWith(line, NotesHeader) { LeadChar(line, NotesHeader); }
    if StartsWith(line, "-") { LeadChar(line, "-"); }
  }

  /** A line that starts with a label contains a colon, and its first colon is
      the label's own. */
  lemma LabelColon(line: string, tag: string)
    requires LabelShaped(tag) && StartsWith(line, tag)
    ensures ':' in line
    ensures AfterFirst(line, ':') == line[|tag|..]
  {
    assert line[|tag| - 1] == tag[|tag| - 1];
    assert line[..|tag| - 1] == tag[..|tag| - 1];
    AfterFirstAt(line, ':', |tag| - 1);
  }

  /** The value of a metadata line: the stripped text after its first colon. */
  function MetaValue(line: string): (r: string)
    requires ':' in line
    ensures |r| < |line|
    ensures TrimmedFrom(line, Find(line, ':') + 1, r)
  {
    assert TrimmedFrom(line, Find(line, ':') + 1, Strip(AfterFirst(line, ':'))) by {
      StripFrom(line, Find(line, ':') + 1);
    }
    Strip(AfterFirst(line, ':'))
  }

  /** A bullet item: the stripped text after the leading character. */
  function BulletText(line: string): (r: string)
    requires |line| > 0
    ensures |r| < |line|
    ensures TrimmedFrom(line, 1, r)
  {
    StripAfter(line, 1)
  }

  /** A numbered step: the stripped text after the first `.` anywhere in the
      line, or the whole stripped line when there is no `.` (`find` gives -1
      and the slice then starts at 0). */
  function DirectionText(line: string): (r: string)
    ensures |r| <= |line|
    ensures TrimmedFrom(line, Find(line, '.') + 1, r)
  {
    StripAfter(line, Find(line, '.') + 1)
  }

  /** How many list entries a recipe holds, over its three lists. */
  function EntryCount(r: Recipe): nat {
    |r.ingredients| + |r.directions| + |r.notes|
  }

  /** One line adds at most one entry, at the end of one list, and leaves
      the entries already there as they were. */
  predicate GrowsByAtMostOne(before: Recipe, after: Recipe) {
    && before.ingredients <= after.ingredients
    && before.directions <= after.directions
    && before.notes <= after.notes
    && EntryCount(after) <= EntryCount(before) + 1
  }

  /** The loop body for one raw line: blank lines are skipped, the first
      non-blank line is the title whatever it says, and every later one goes
      through the chain of tests in `Dispatch`. */
  function Step(st: State, raw: string): (r: State)
    ensures Strip(raw) == [] ==> r == st
    ensures r.titleTaken <==> st.titleTaken || Strip(raw) != []
    ensures st.titleTaken ==> r.recipe.title == st.recipe.title
    ensures !st.titleTaken && r.titleTaken ==> r.recipe.title == Strip(raw)
    ensures GrowsByAtMostOne(st.recipe, r.recipe)
  {
    var line := Strip(raw);
    if line == [] then st
    else if !st.titleTaken then st.(recipe := st.recipe.(title := line), titleTaken := true)
    else Dispatch(st, line)
  }

  /** The chain of tests for a stripped, non-blank line after the title; the
      first test that holds decides, and a line that passes none is dropped. */
  function Dispatch(st: State, line: string): (r: State)
    requires line != []
    ensures r.titleTaken == st.titleTaken && r.recipe.title == st.recipe.title
    ensures GrowsByAtMostOne(st.recipe, r.recipe)
  {
    var rec := st.recipe;
    LabelsShaped();
    if StartsWith(line, ServesLabel) then
      LabelColon(line, ServesLabel);
      st.(recipe := rec.(serves := MetaValue(line)))
    else if StartsWith(line, ActiveTimeLabel) then
      LabelColon(line, ActiveTimeLabel);
      st.(recipe := rec.(prep := MetaValue(line)))
    else if StartsWith(line, TotalTimeLabel) then
      LabelColon(line, TotalTimeLabel);
      st.(recipe := rec.(cook := MetaValue(line)))
    else if StartsWith(line, IngredientsHeader) then st.(section := InIngredients)
    else if StartsWith(line, DirectionsHeader) then st.(section := InDirections)
    else if StartsWith(line, NotesHeader) then st.(section := InNotes)
    else if st.section == InIngredients && StartsWith(line, "-") then
      st.(recipe := rec.(ingredients := rec.ingredients + [BulletText(line)]))
    else if st.section == InDirections && IsDigit(line[0]) then
      st.(recipe := rec.(directions := rec.directions + [DirectionText(line)]))
    else if st.section == InNotes && StartsWith(line, "-") then
      st.(recipe := rec.(notes := rec.notes + [BulletText(line)]))
    else st
  }

  /** The state after the loop has consumed `lines`. */
  function Run(lines: seq<string>): (r: State)
    ensures r.titleTaken <==> r.recipe.title != []
    ensures EntryCount(r.recipe) <= |lines|
  {
    if lines == [] then Start
    else Step(Run(lines[..|lines| - 1]), lines[|lines| - 1])
  }

  /** `parse_recipe`, on the lines of the file. */
  function Parse(lines: seq<string>): (r: Recipe)
    ensures r.title == [] <==> forall i :: 0 <= i < |lines| ==> Strip(lines[i]) == []
    ensures EntryCount(r) <= |lines|
  {
    TitleTakenIffNonBlank(lines);
    Run(lines).recipe
  }

  /** The title flag is set exactly when some line is not blank. */
  lemma {:induction false} TitleTakenIffNonBlank(lines: seq<string>)
    ensures Run(lines).titleTaken <==> exists i :: 0 <= i < |lines| && Strip(lines[i]) != []
  {
    if lines != [] {
      var init := lines[..|lines| - 1];
      TitleTakenIffNonBlank(init);
      assert forall i :: 0 <= i < |init| ==> init[i] == lines[i];
    }
  }

  /** The same pass written as the source writes it, a loop over the lines. */
  method ParseLines(lines: seq<string>) returns (r: Recipe)
    ensures r == Parse(lines)
  {
    var st := Start;
    var i := 0;
    while i < |lines|
      invariant 0 <= i <= |lines|
      invariant st == Run(lines[..i])
    {
      RunPrefixStep(lines, i);
      st := Step(st, lines[i]);
      i := i + 1;
    }
    assert lines[..i] == lines;
    r := st.recipe;
  }

  /** The loop's state after one more line. */
  lemma RunPrefixStep(lines: seq<string>, i: nat)
    requires i < |lines|
    ensures Run(lines[..i + 1]) == Step(Run(lines[..i]), lines[i])
  {
    assert lines[..i + 1][..i] == lines[..i];
  }
}

=== FILE: strings.dfy ===
/**
 The few Python string operations the build script relies on, written out over
 `seq<char>`: `str.isspace`/`str.strip`, `str.startswith`, `str.find` for a
 single character, `s.split(c, 1)[1]`, `str.replace` of a single character,
 the ASCII part of `str.isdigit`, and `str.join`.
 */
module Strings {

  /** The characters Python's `str.isspace` accepts, which are the ones
      `str.strip()` removes when called without arguments: the ASCII controls
      TAB to CR and FS to US, SPACE, NEL, NO-BREAK SPACE, OGHAM SPACE MARK, the
      spaces EN QUAD to HAIR SPACE, the line and paragraph separators, NARROW
      NO-BREAK SPACE, MEDIUM MATHEMATICAL SPACE and IDEOGRAPHIC SPACE. */
  predicate IsSpace(c: char) {
    || '\t' <= c <= '\r'
    || '\U{1C}' <= c <= ' '
    || c == '\U{85}' || c == '\U{A0}' || c == '\U{1680}'
    || '\U{2000}' <= c <= '\U{200A}'
    || c == '\U{2028}' || c == '\U{2029}' || c == '\U{202F}' || c == '\U{205F}' || c == '\U{3000}'
  }

  predicate AllSpace(s: string) {
    forall i :: 0 <= i < |s| ==> IsSpace(s[i])
  }

  /** Decimal digits, ASCII only. */
  predicate IsDigit(c: char) {
    '0' <= c <= '9'
  }

  predicate StartsWith(s: string, prefix: string) {
    |prefix| <= |s| && s[..|prefix|] == prefix
  }

  /** A string that starts with a non-empty prefix starts with its first
      character. */
  lemma LeadChar(s: string, prefix: string)
    requires prefix != [] && StartsWith(s, prefix)
    ensures s[0] == prefix[0]
  {
    assert s[0] == s[..|prefix|][0];
  }

  /** A prefix of a text is a prefix of any extension of it. */
  lemma StartsWithAppend(s: string, t: string, prefix: string)
    requires StartsWith(s, prefix)
    ensures StartsWith(s + t, prefix)
  {
    assert (s + t)[..|prefix|] == s[..|prefix|];
  }

  /** Python's `str.strip()`: whitespace is removed from both ends until the
      first and last characters are not whitespace. */
  function Strip(s: string): (r: string)
    ensures |r| <= |s|
    ensures r == [] || (!IsSpace(r[0]) && !IsSpace(r[|r| - 1]))
  {
    if |s| > 0 && IsSpace(s[0]) then Strip(s[1..])
    else if |s| > 0 && IsSpace(s[|s| - 1]) then Strip(s[..|s| - 1])
    else s
  }

  /** Python's `str.find` for one character: the first index of `c`, or -1. */
  function Find(s: string, c: char): (r: int)
    ensures -1 <= r < |s|
    ensures r == -1 <==> c !in s
    ensures r >= 0 ==> s[r] == c && c !in s[..r]
  {
    if s == [] then -1
    else if s[0] == c then 0
    else
      var k := Find(s[1..], c);
      assert s[1..] == s[1..][..|s| - 1];
      if k == -1 then -1
      else
        assert s[..k + 1] == [s[0]] + s[1..][..k];
        k + 1
  }

  /** Python's `sep.join(parts)`: nothing for no parts, and otherwise the parts
      in order with one separator between each two. */
  function Join(parts: seq<string>, sep: string): (r: string)
    ensures parts == [] ==> r == []
    ensures |parts| == 1 ==> r == parts[0]
    ensures parts != [] ==> |r| == TotalLength(parts) + (|parts| - 1) * |sep|
    ensures parts != [] ==> r[..|parts[0]|] == parts[0]
  {
    if parts == [] then ""
    else if |parts| == 1 then parts[0]
    else
      var rest := Join(parts[1..], sep);
      assert (|parts| - 1) * |sep| == (|parts[1..]| - 1) * |sep| + |sep|;
      assert (parts[0] + sep + rest)[..|parts[0]|] == parts[0];
      parts[0] + sep + rest
  }

  /** Joining two non-empty runs of parts is joining each and putting one
      separator between them; with the empty and one-part cases of `Join`'s
      contract this fixes the joined text completely. */
  lemma {:induction false} JoinAppend(a: seq<string>, b: seq<string>, sep: string)
    requires a != [] && b != []
    ensures Join(a + b, sep) == Join(a, sep) + sep + Join(b, sep)
    decreases |a|
  {
    assert (a + b)[0] == a[0];
    if |a| == 1 {
      assert (a + b)[1..] == b;
    } else {
      assert (a + b)[1..] == a[1..] + b;
      JoinAppend(a[1..], b, sep);
    }
  }

  /** The combined length of `parts`. */
  function TotalLength(parts: seq<string>): nat {
    if parts == [] then 0 else |parts[0]| + TotalLength(parts[1..])
  }

  /** The text after the first `c` in `s`: `s.split(c, 1)[1]`. */
  function AfterFirst(s: string, c: char): (r: string)
    requires c in s
    ensures |r| < |s| && r == s[|s| - |r|..]
    ensures c !in s[..|s| - |r| - 1] && s[|s| - |r| - 1] == c
  {
    s[Find(s, c) + 1..]
  }

  /** Stripping removes whitespace only: the result is the slice `s[i..j]`,
      and everything outside it is whitespace. */
  lemma {:induction false} StripIsSlice(s: string) returns (i: nat, j: nat)
    ensures i <= j <= |s| && Strip(s) == s[i..j]
    ensures AllSpace(s[..i]) && AllSpace(s[j..])
  {
    if |s| > 0 && IsSpace(s[0]) {
      var i', j' := StripIsSlice(s[1..]);
      SliceAfterFront(s, i', j');
      i, j := i' + 1, j' + 1;
    } else if |s| > 0 && IsSpace(s[|s| - 1]) {
      i, j := StripIsSlice(s[..|s| - 1]);
      SliceBeforeBack(s, i, j);
    } else {
      i, j := 0, |s|;
    }
  }

  lemma SliceAfterFront(s: string, i: nat, j: nat)
    requires |s| > 0 && IsSpace(s[0]) && i <= j <= |s| - 1
    requires AllSpace(s[1..][..i]) && AllSpace(s[1..][j..])
    ensures s[1..][i..j] == s[i + 1..j + 1] && AllSpace(s[..i + 1]) && AllSpace(s[j + 1..])
  {
    assert s[..i + 1] == [s[0]] + s[1..][..i];
    AllSpaceAppend([s[0]], s[1..][..i]);
    assert s[j + 1..] == s[1..][j..];
  }

  lemma SliceBeforeBack(s: string, i: nat, j: nat)
    requires |s| > 0 && IsSpace(s[|s| - 1]) && i <= j <= |s| - 1
    requires AllSpace(s[..|s| - 1][..i]) && AllSpace(s[..|s| - 1][j..])
    ensures s[..|s| - 1][i..j] == s[i..j] && AllSpace(s[..i]) && AllSpace(s[j..])
  {
    assert s[..|s| - 1][..i] == s[..i];
    SpaceTail(s, j);
  }

  /** Whitespace after `j` in all but the last character, and a whitespace
      last character, make whitespace after `j`. */
  lemma SpaceTail(s: string, j: nat)
    requires j < |s| && IsSpace(s[|s| - 1]) && AllSpace(s[..|s| - 1][j..])
    ensures AllSpace(s[j..])
  {
    forall k | 0 <= k < |s[j..]| ensures IsSpace(s[j..][k]) {
      if j + k < |s| - 1 {
        assert s[j..][k] == s[..|s| - 1][j..][k];
      }
    }
  }

  /** `r` is what is left of `line[from..]` once the whitespace at both ends
      is removed: a slice of the line from `from` on, with only whitespace
      around it and no whitespace at its own ends. */
  predicate TrimmedFrom(line: string, from: nat, r: string) {
    && from <= |line|
    && (exists i, j :: from <= i <= j <= |line| && r == line[i..j] && AllSpace(line[from..i]) && AllSpace(line[j..]))
    && (r == [] || (!IsSpace(r[0]) && !IsSpace(r[|r| - 1])))
  }

  /** `line[from:].strip()`. */
  function StripAfter(line: string, from: nat): (r: string)
    requires from <= |line|
    ensures |r| <= |line| - from
    ensures TrimmedFrom(line, from, r)
  {
    StripFrom(line, from);
    Strip(line[from..])
  }

  /** `line[from:].strip()` is `line[from..]` trimmed. */
  lemma StripFrom(line: string, from: nat)
    requires from <= |line|
    ensures TrimmedFrom(line, from, Strip(line[from..]))
  {
    var t := line[from..];
    var i, j := StripIsSlice(t);
    assert t[i..j] == line[from + i..from + j];
    assert t[..i] == line[from..from + i];
    assert t[j..] == line[from + j..];
  }

  /** A stripped line is empty exactly when the line was blank. */
  lemma {:induction false} StripEmptyIffBlank(s: string)
    ensures Strip(s) == [] <==> AllSpace(s)
  {
    if |s| > 0 && IsSpace(s[0]) {
      StripEmptyIffBlank(s[1..]);
      assert AllSpace(s) <==> AllSpace(s[1..]) by {
        assert s == [s[0]] + s[1..];
        AllSpaceAppend([s[0]], s[1..]);
      }
    } else if |s| > 0 && IsSpace(s[|s| - 1]) {
      StripEmptyIffBlank(s[..|s| - 1]);
      assert AllSpace(s) <==> AllSpace(s[..|s| - 1]) by {
        assert s == s[..|s| - 1] + [s[|s| - 1]];
        AllSpaceAppend(s[..|s| - 1], [s[|s| - 1]]);
      }
    }
  }

  lemma AllSpaceAppend(a: string, b: string)
    ensures AllSpace(a + b) <==> AllSpace(a) && AllSpace(b)
  {
    if AllSpace(a + b) {
      forall i | 0 <= i < |a| ensures IsSpace(a[i]) {
        assert a[i] == (a + b)[i];
      }
      forall i | 0 <= i < |b| ensures IsSpace(b[i]) {
        assert b[i] == (a + b)[|a| + i];
      }
    }
    if AllSpace(a) && AllSpace(b) {
      forall i | 0 <= i < |a + b| ensures IsSpace((a + b)[i]) {
        if i >= |a| { assert (a + b)[i] == b[i - |a|]; }
      }
    }
  }

  /** When the first occurrence of `c` is known, `AfterFirst` is the rest after it. */
  lemma AfterFirstAt(s: string, c: char, k: nat)
    requires k < |s| && s[k] == c && c !in s[..k]
    ensures AfterFirst(s, c) == s[k + 1..]
  {
  }

  /** `s.replace(c, entity)` for a single character `c`. */
  function ReplaceChar(s: string, c: char, entity: string): (r: string)
    ensures c !in entity ==> c !in r
  {
    if s == [] then []
    else (if s[0] == c then entity else [s[0]]) + ReplaceChar(s[1..], c, entity)
  }

  lemma {:induction false} ReplaceCharAppend(a: string, b: string, c: char, entity: string)
    ensures ReplaceChar(a + b, c, entity) == ReplaceChar(a, c, entity) + ReplaceChar(b, c, entity)
  {
    if a == [] {
      assert a + b == b;
    } else {
      assert (a + b)[1..] == a[1..] + b;
      ReplaceCharAppend(a[1..], b, c, entity);
    }
  }

  lemma ReplaceCharSingle(d: char, c: char, entity: string)
    ensures ReplaceChar([d], c, entity) == if d == c then entity else [d]
  {
    assert [d][1..] == [];
  }

  lemma {:induction false} ReplaceCharKeeps(s: string, c: char, entity: string)
    requires c !in s
    ensures ReplaceChar(s, c, entity) == s
  {
    if s != [] {
      ReplaceCharKeeps(s[1..], c, entity);
    }
  }
}
